=== FILE: README.md ===
# Formulas-Parser in Dafny

A model of the core of the Formulas-Parser template compiler. The compiler turns a backtick-delimited
template such as `` `Total: ${LENGTH(GET("items"))}` `` into the body text of a JavaScript function,
together with the names of the variables that function reads. It works in three stages.

- **Lexer** (`Lexer.dfy`, with the keyword table in `Keywords.dfy` and the token type in `Tokens.dfy`).
  - It strips the backticks and scans the rest in two modes.
  - Outside a formula it emits literal-text runs that end at the next `${`.
  - Inside a formula it emits spaces, quoted strings, numbers, words (keywords or identifiers),
    punctuation, `<` `<=` `>` `>=` `===` and `}`.
  - Columns are recorded against the original template, shifted by one for the leading backtick.
  - A bad character or an `=` that does not start `===` aborts the scan with an error.
- **Parser** (`Parser.dfy`, with the tree type in `ParseTree.dfy`).
  - A recursive-descent parser over the token list, with whitespace tokens removed.
  - SourceFile → TemplateString → (text | Formula).
  - A formula body holds at most one value: a string, a number, `GET("name")` or
    `LENGTH(GET("name"))`.
  - `IF` only has its parentheses checked.
  - The parser's cursor becomes an explicit index that every parse function takes and returns.
- **Transpiler** (`Transpiler.dfy`).
  - It generates the function body text from a tree and records the `GET` variable names in order.
  - It works on its own node type, whose kinds are those its dispatch recognises.
  - No theorem connects the parser's output to the transpiler's input, because their node kinds
    differ.

`Pipeline.dfy` states how the lexer's output meets the parser's expectations. `Results.dfy` holds
the `Result`/`Option` types. `JsText.dfy` models the JavaScript string operations the source relies
on:

- `slice`, with negative and clamped indices;
- `slice(1, -1)`;
- `charCodeAt` comparisons, which are false out of range because the code is then `NaN`.

Every `throw` becomes a `Failure` that carries the error's kind and the column it reports. Loops
become recursive functions with explicit termination measures. For the scanner this measure is
`2 * (remaining characters) + (1 outside a formula)`: a zero-length text run only switches the mode.

## Model

| member | source | states |
|---|---|---|
| JsText.Slice | src/FormulasParser/Parser/Parser.ts:207-218 | `slice(start, end)` with in-range indices is the substring between them; an empty or inverted range gives the empty string |
| JsText.DropEnds | src/FormulasParser/Lexer/Lexer.ts:25 | `slice(1, -1)` drops the first and last character, and gives the empty string for inputs shorter than two |
| JsText.DropEndsUnwraps | src/TemplateParser/Transpiler/Transpiler.ts:73-77 | removing the ends undoes wrapping a body in a pair of quotes |
| Keywords.TableIsKeywordBijection | src/TemplateParser/Lexer/structures/TextToKeyword.ts:5-11 | the table's keys are exactly IF, GET, LENGTH, TRUE, FALSE; they map to five distinct kinds, every one a keyword kind; every keyword kind is reached |
| Keywords.IdentifierKind | src/FormulasParser/Lexer/Lexer.ts:188-195 | a word is a given keyword iff it is exactly that keyword's upper-case text (so `if` is an identifier); it is an identifier iff it is no keyword |
| Lexer.TextRunEnd | src/FormulasParser/Lexer/Lexer.ts:159-170 | the text run ends at the first `${` at or after the start, or at the end of the text, and holds no `${` |
| Lexer.TextStep | src/FormulasParser/Lexer/Lexer.ts:159-170 | a text-mode scan emits a possibly empty string literal with no `${` inside; it switches to formula mode exactly when it stopped before the end |
| Lexer.SpaceRunEnd | src/FormulasParser/Lexer/Lexer.ts:61-66 | a space run is non-empty, all spaces, and maximal |
| Lexer.SpaceStep | src/FormulasParser/Lexer/Lexer.ts:61-66 | a whitespace token is a non-empty run of spaces that is not followed by a space |
| Lexer.QuoteCloseFrom | src/FormulasParser/Lexer/Lexer.ts:172-186 | the quoted string ends just after the first later occurrence of its opening quote, or at the end of the text when there is none |
| Lexer.QuoteStep | src/FormulasParser/Lexer/Lexer.ts:172-186 | a quoted-string token starts with its quote, holds no other copy of it before its last character, and runs to the end of the text when unterminated |
| Lexer.DigitsEnd | src/FormulasParser/Lexer/Lexer.ts:147-157 | a digit fragment is a maximal run of decimal digits |
| Lexer.NumberEnd | src/FormulasParser/Lexer/Lexer.ts:137-145 | a number is a non-zero digit, then digits with at most one dot; it is not followed by a digit, nor by a dot unless it already holds one |
| Lexer.NumberStep | src/FormulasParser/Lexer/Lexer.ts:112-121 | a number token has the numeric shape and is maximal |
| Lexer.LettersEnd | src/FormulasParser/Lexer/Lexer.ts:123-127 | a word is a maximal run of ASCII letters |
| Lexer.WordStep | src/FormulasParser/Lexer/Lexer.ts:122-129 | a word token is a maximal letter run whose kind is its keyword, or Identifier |
| Lexer.OperatorStep | src/FormulasParser/Lexer/Lexer.ts:70-111 | punctuation scans fail iff an `=` is not followed by two more; otherwise the token has its kind's text; only a close brace leaves formula mode; `<`/`>` are single only when no `=` follows; a `$` without `{` becomes a close brace |
| Lexer.RunStep | src/FormulasParser/Lexer/Lexer.ts:60-69 | spaces, quotes, digits 1-9 and letters start a token of the matching shape that keeps formula mode and is maximal |
| Lexer.ScanStep | src/FormulasParser/Lexer/Lexer.ts:47-135 | one scan makes progress, except for an empty text run that switches into formula mode; formula tokens have their kind's shape; an error names the current character and its template column |
| Lexer.ScanStepErrors | src/FormulasParser/Lexer/Lexer.ts:97-132 | formula mode fails exactly on a character that starts no token or on an `=` not followed by `==`, and the error kind says which |
| Lexer.TextRunFits | src/FormulasParser/Lexer/Lexer.ts:164 | a stretch of the text with no `${` opener is a text-run lexeme |
| Lexer.ScanIsWellFormed | src/FormulasParser/Lexer/Lexer.ts:31-42 | a successful scan ends with its only end-of-file token; the tokens tile the text without gaps and their lexemes concatenate to it; every token has its kind's shape |
| Lexer.ScanErrorIsLocated | src/FormulasParser/Lexer/Lexer.ts:218-220 | a failed scan reports a character of the text at or after the start, by its template column |
| Lexer.Tokenize | src/FormulasParser/Lexer/Lexer.ts:21-24 | a template not delimited by backticks gives no tokens |
| Lexer.TokenizeTilesTemplate | src/FormulasParser/Lexer/Lexer.ts:25-45 | for a delimited template, exactly one end-of-file token, last; columns start at 1 and chain; each lexeme is the template between its columns; the lexemes rebuild the template without its backticks |
| Lexer.TokenizeErrorIsLocated | src/FormulasParser/Lexer/Lexer.ts:218-220 | a lexical error points at a character strictly inside the backticks |
| Lexer.TextRunIsFollowedByFormulaOrEnd | src/FormulasParser/Lexer/Lexer.ts:159-170 | outside a formula, the first token is a `${`-free text run, followed by the `${` token or the end of file |
| Lexer.CloseBraceLeavesFormula | src/FormulasParser/Lexer/Lexer.ts:70-79 | `}`, and a `$` not followed by `{`, give a one-character close brace; the scanner then returns to text mode |
| Lexer.SpaceRunIsOneToken | src/FormulasParser/Lexer/Lexer.ts:61-66 | a run of spaces in a formula is one non-empty whitespace token, and the next token does not start with a space |
| Lexer.QuotedStringToken | src/FormulasParser/Lexer/Lexer.ts:172-186 | a quoted-string token starts with its quote and is terminated by it, or reaches the end of the input |
| Lexer.NumericToken | src/FormulasParser/Lexer/Lexer.ts:112-157 | a numeric token has the numeric shape and is maximal |
| Lexer.WordToken | src/FormulasParser/Lexer/Lexer.ts:122-129 | a word token is a maximal letter run; its kind is the table's entry when it is a key and Identifier otherwise |
| Lexer.InvalidCharacterIsFatal | src/FormulasParser/Lexer/Lexer.ts:122-132 | inside a formula, a `0` or any character that starts no token aborts the scan at its column |
| Lexer.EqualityOperatorNeedsThree | src/FormulasParser/Lexer/Lexer.ts:209-216 | `===` is one three-character token; an `=` with anything else after it is fatal |
| Parser.WithoutWhitespace | src/FormulasParser/Parser/Parser.ts:19 | filtering never lengthens the list |
| Parser.WithoutWhitespaceMembers | src/FormulasParser/Parser/Parser.ts:19 | the filtered list holds exactly the non-whitespace tokens |
| Parser.WithoutWhitespaceAppend | src/FormulasParser/Parser/Parser.ts:19 | filtering distributes over concatenation, so order is kept |
| Parser.WithoutWhitespaceKeepsClean | src/FormulasParser/Parser/Parser.ts:19 | a list without whitespace is left unchanged |
| Parser.WithoutWhitespaceIdempotent | src/FormulasParser/Parser/Parser.ts:19 | filtering twice is filtering once |
| Parser.ParseIgnoresWhitespace | src/FormulasParser/Parser/Parser.ts:17-27 | parsing a token list and parsing it without its whitespace give the same result |
| Parser.FindTokenIndexFrom | src/FormulasParser/Parser/Parser.ts:232-241 | the result is the least index at or after `from` holding the kind, or none when there is no such index |
| Parser.FindClosingFrom | src/FormulasParser/Parser/Parser.ts:246-258 | scanning with the running depth finds the least `)` at depth zero, or none |
| Parser.FindClosingToken | src/FormulasParser/Parser/Parser.ts:243-260 | the result is the least index at or after `from` holding a `)` whose preceding parentheses balance to zero, or none; the kind arguments are ignored |
| Parser.StringLiteralNode | src/FormulasParser/Parser/Parser.ts:207-218 | a string literal becomes a leaf with the token's columns |
| Parser.NumericLiteralNode | src/FormulasParser/Parser/Parser.ts:220-230 | a numeric literal becomes a leaf whose value is the lexeme |
| Parser.EndOfFileNode | src/FormulasParser/Parser/Parser.ts:82-92 | the end of file becomes an empty leaf |
| Parser.ParseGet | src/FormulasParser/Parser/Parser.ts:159-181 | GET succeeds iff it is followed by `( StringLiteral )`; it then consumes four tokens and yields a call whose only child is the string node, spanning the keyword to the `)`; a missing `(`, or a token other than `)` three places on, is reported as bad parentheses at the `(` token's column; with the parentheses right, a non-string argument is reported at its own column |
| Parser.ParseLength | src/FormulasParser/Parser/Parser.ts:183-205 | LENGTH succeeds iff it is followed by `( GET ( StringLiteral ) )`; it then consumes seven tokens and has the GET call as its only child; a non-GET argument is reported at its column; a failing inner GET passes its error on unchanged; bad parentheses around a good GET are reported at the `(` token's column |
| Parser.ParseIf | src/FormulasParser/Parser/Parser.ts:148-157 | IF passes iff a `(` follows and a matching `)` exists later; it moves past the keyword only; otherwise the error is at the token after the keyword |
| Parser.ParseFormulaItems | src/FormulasParser/Parser/Parser.ts:114-141 | every node a formula body yields is a string, number, GET call or LENGTH call |
| Parser.FormulaItemsAreFormulaNodes | src/FormulasParser/Parser/Parser.ts:114-141 | the formula body loop, from any accumulator, yields that accumulator followed by one leaf per string or number token and one call node per GET or LENGTH, in token order, IF adding nothing; it fails exactly when that sequence fails, with the same error |
| Parser.ParseFormulaBody | src/FormulasParser/Parser/Parser.ts:142-146 | a body yields at most one node; an empty body yields none; a loop result of at most one node is the body, and a loop failure is passed on; a second value is reported at its own column |
| Parser.FormulaBodyIsFormulaNodes | src/FormulasParser/Parser/Parser.ts:114-146 | the body succeeds iff its nodes parse and number at most one, and is then exactly those nodes; a failure among them is passed on; a second node is reported at its own column |
| Parser.ParseFormula | src/FormulasParser/Parser/Parser.ts:94-112 | with no close brace at or after the `${`, it fails at the `${` column; otherwise the formula ends at the first close brace, parsing resumes after it, the node spans `${` to `}`, and the result is the formula built over the body up to that brace |
| Parser.FormulaNode | src/FormulasParser/Parser/Parser.ts:100-111 | the formula's children are exactly the parsed body between `${` and its close brace, a failure in that body is passed on, and parsing resumes after the brace |
| Parser.LiteralFormulaParses | src/FormulasParser/Parser/Parser.ts:94-146 | a formula holding one string or number literal (such as `${123}` or `${"ABC"}`) has that literal's leaf as its only child |
| Parser.TwoLiteralFormulaFails | src/FormulasParser/Parser/Parser.ts:94-146 | a formula holding two literals (such as `${"ABC" 123}`) fails with too many arguments at the second literal's column |
| Parser.ParseTemplateItems | src/FormulasParser/Parser/Parser.ts:53-71 | the template loop accepts only text runs and formulas, rejects any other token at its column, and always stops on the end-of-file token |
| Parser.ParseTemplateString | src/FormulasParser/Parser/Parser.ts:72-79 | the template node spans column 0 to the last token before the end of file, and the cursor stops on the end of file |
| Parser.TemplateItemsAreTemplateNodes | src/FormulasParser/Parser/Parser.ts:53-71 | the template loop, from any accumulator, yields that accumulator followed by one string node per top-level text token and one formula per `${`, in token order; it fails exactly when that sequence fails, with the same error |
| Parser.TemplateStringChildren | src/FormulasParser/Parser/Parser.ts:53-79 | the template node's children are exactly those nodes, one per top-level text token or formula, in order |
| Parser.TextOnlyTemplate | src/FormulasParser/Parser/Parser.ts:53-79 | a template that lexes to one text run and the end of file (such as `` `ABC 123` ``) has that run's string node as its only child |
| Parser.ParseSourceFile | src/FormulasParser/Parser/Parser.ts:29-51 | a list not ending in end of file is rejected; a lone end of file gives `[EndOfFile]`; otherwise the children are `[TemplateString, EndOfFile]`, every token is consumed, the parse succeeds iff the template body does, and the first child is that body's node |
| Parser.Parse | src/FormulasParser/Parser/Parser.ts:17-27 | a successful parse is a well-formed source file; the final check for unconsumed tokens never rejects, so a success is exactly the source-file node parsed from the whitespace-free tokens; a missing end of file is reported at column 0 |
| Parser.IfInFormulaFails | src/FormulasParser/Parser/Parser.ts:134-157 | an IF inside a formula always fails at the token after the keyword: its parentheses are rejected, or the `(` left under the cursor is an unexpected body token |
| Parser.GetFormulaParses | src/FormulasParser/Parser/Parser.ts:94-112 | `${ GET ( "x" ) }` parses to a formula whose only child is the GET call, resuming after the `}` |
| Parser.EmptyFormulaParses | src/FormulasParser/Parser/Parser.ts:114-146 | `${}` parses to a formula with no children |
| Pipeline.KeepsLastToken | src/FormulasParser/Parser/Parser.ts:19 | removing whitespace keeps a non-whitespace last token last |
| Pipeline.LexedTokensEndWithEof | src/FormulasParser/Parser/Parser.ts:29-33 | for a delimited template, the lexed and filtered tokens are non-empty and end with the end of file, so the parser's end-of-file check passes |
| Pipeline.StringNodeKeepsLexeme | src/FormulasParser/Parser/Parser.ts:207-218 | a string node built from a lexed token holds that token's lexeme; with quotes stripped, the lexeme without its ends, which is empty for a lexeme shorter than two characters |
| Transpiler.Resolve | src/TemplateParser/Transpiler/Transpiler.ts:64-65 | source-file, template, end-of-file and bare comparison nodes are rejected as invalid node types |
| Transpiler.ResolveCondition | src/TemplateParser/Transpiler/Transpiler.ts:96-111 | a condition that is not a comparison is resolved as a value; a comparison succeeds iff both operands resolve and the comparator is present, rendering as the left code, the comparator's text and the right code separated by single spaces, with the operands' names left then right |
| Transpiler.Transpile | src/TemplateParser/Transpiler/Transpiler.ts:14-29 | a root whose first child is not a template gives the empty function and no names; a root with no children fails; the generated function's parameter is `subFunctions` |
| Transpiler.ResolveMatchesReference | src/TemplateParser/Transpiler/Transpiler.ts:45-111 | resolution succeeds iff the node and the children it reads are supported kinds and present; the names it records are the unquoted GET arguments in left-to-right order, duplicates kept |
| Transpiler.ConditionMatchesReference | src/TemplateParser/Transpiler/Transpiler.ts:91-111 | the same for IF conditions: a comparison needs both operands and the comparator, and records the names of its operands only |
| Transpiler.InterpolateIsSegments | src/TemplateParser/Transpiler/Transpiler.ts:37-39 | the left `reduce` from any accumulator is that accumulator followed by one `${...}` segment per node in order; it fails exactly when a node fails, with that node's error |
| Transpiler.SegmentsSucceedOnResolvable | src/TemplateParser/Transpiler/Transpiler.ts:37-39 | the segments succeed iff every node is resolvable, and carry the nodes' names in order |
| Transpiler.TranspileTemplate | src/TemplateParser/Transpiler/Transpiler.ts:22-43 | a template transpiles iff all its children resolve; one child gives `return <code>;`; any other count gives `` return `<segments>`; `` (empty for none); the names are all children's names in order, collected afresh |
| Transpiler.FunctionBodyMatches | src/TemplateParser/Transpiler/Transpiler.ts:31-43 | the body builder succeeds iff every child is resolvable; a single child is returned as an expression, any other number as a backtick template of its segments; the names are the children's names in order |
| Transpiler.FormulaCode | src/TemplateParser/Transpiler/Transpiler.ts:53-54 | a formula node resolves to exactly what its first child resolves to, code, names and failure alike; with no children it fails |
| Transpiler.LengthCode | src/TemplateParser/Transpiler/Transpiler.ts:69-71 | a LENGTH call succeeds iff its first child is present and resolves, and is then a `length` call around that child's code with that child's names |
| Transpiler.IfCode | src/TemplateParser/Transpiler/Transpiler.ts:91-102 | an IF succeeds iff its condition, true branch and false branch are present and resolve, and is then `cond ? t : f` with the names of the condition, the true branch and the false branch in that order |
| Transpiler.GetFormulaCode | src/TemplateParser/Transpiler/Transpiler.ts:53-54 | a formula around `GET("x")` resolves to the `get` call on `"x"` and records `x` |
| Transpiler.GetFormulaTranspiles | src/TemplateParser/Transpiler/Transpiler.ts:22-43 | the template `${GET("x")}` transpiles to a function of `subFunctions` whose body is `return subFunctions.get("x");`, reading exactly `x` |
| Transpiler.GetCallRoundTrip | src/TemplateParser/Transpiler/Transpiler.ts:73-77 | a GET of a quoted name records the bare name and emits a `get` call on the quoted text, so re-quoting the name gives the argument back |
| Transpiler.LiteralCode | src/TemplateParser/Transpiler/Transpiler.ts:79-106 | string and number literals are emitted verbatim, template literals in double quotes, booleans as `true`/`false`; none records a name |
| Transpiler.LengthOfGet | src/TemplateParser/Transpiler/Transpiler.ts:69-77 | `LENGTH(GET("x"))` becomes `subFunctions.length(subFunctions.get("x"))` and records `x` |
| Transpiler.ComparisonCondition | src/TemplateParser/Transpiler/Transpiler.ts:96-111 | a comparison condition renders as the left operand's code, the comparator's text and the right operand's code separated by single spaces, and records the operands' names left then right |
| Transpiler.IfWithComparison | src/TemplateParser/Transpiler/Transpiler.ts:91-111 | an IF with a comparison becomes `a op b ? t : f`; it records the names of the left operand, the right operand, the true branch and the false branch, in that order |

## Left out

- `new Function(...)`: the generated function is not built or run. The model produces its parameter
  name and body text only.
- The glue that chains the stages and logs their output (`src/TemplateParser/TemplateParser.ts`).
  Also the demo sub-functions and fake variables, the application entry point and the build
  configuration.
- `TokenType.Unknown`: the invalid-character path throws before it would return this kind, so the
  model has no such token.
- The keyword table is a finite map. JavaScript object-prototype keys such as `toString`, which the
  source's lookup would also find, are not modelled.
- Characters are Dafny `char`s classified by ASCII ranges. UTF-16 code-unit details are not
  modelled.
- Error messages are reduced to an error kind plus the column the source reports. The lexer error
  also records the offending character.
- The parser is modelled only for inputs whose whitespace-filtered token list is non-empty (a
  precondition of `Parser.Parse`). On an empty list the source crashes reading `undefined`.
  The lexer never produces such a list for a delimited template (`Pipeline.LexedTokensEndWithEof`).
  For an undelimited template, the lexer's empty token list reaches that crash.
- `parseIfKeyword` returns `undefined`, which the body loop pushes as a node. The model records
  nothing for it. This is unobservable: `Parser.IfInFormulaFails` shows that such a formula always
  ends in an error before the node count is checked.
- The parser's node-kind set lists comparison, binary-expression and IF nodes, but this parser
  never builds them: an IF always fails, and comparison tokens are unexpected body tokens. The
  model follows the code and has no IF grammar.
- Parser.ParseSourceFile: the source's second check for unconsumed tokens, after the end-of-file
  node, has no branch. The template loop provably stops on the end-of-file token, so that check can
  never fail. The final check in `Parser.Parse` is kept and is proved never to reject.
- Transpiler nodes carry no columns, because the transpiler never reads them.
- Transpiler: a read of a missing child becomes `MissingOperand` (the source throws a runtime type
  error there). Only the first problem met, in the source's evaluation order, is reported.
- Transpiler.GetName, Transpiler.LengthName: the definition of the `SubFunctionName` enumeration is
  not part of this model. Its `Get` and `Length` members are taken to be the strings `get` and
  `length`, so the method names in the emitted calls rest on that reading.

=== FILE: JsText.dfy ===
/** The few JavaScript string primitives the compiler relies on, with their
    out-of-range behaviour written out. */
module JsText {

  /** The double-quote and single-quote characters (code points 34 and 39). */
  const DoubleQuote: char := 34 as char
  const SingleQuote: char := 39 as char

  /** `String.prototype.slice` index normalisation: a negative index counts
      from the end, and the result is clamped into `[0, len]`. */
  function ClampIndex(k: int, len: nat): (r: nat)
    ensures r <= len
    ensures 0 <= k <= len ==> r == k
    ensures k < 0 && len + k >= 0 ==> r == len + k
  {
    if k < 0 then (if len + k < 0 then 0 else len + k)
    else if k > len then len
    else k
  }

  /** `s.slice(start, end)`: the characters between the two normalised
      indices, or the empty string when they cross. */
  function Slice(s: string, start: int, end: int): (r: string)
    ensures |r| <= |s|
    ensures 0 <= start <= end <= |s| ==> r == s[start..end]
    ensures ClampIndex(end, |s|) <= ClampIndex(start, |s|) ==> r == ""
  {
    var a := ClampIndex(start, |s|);
    var b := ClampIndex(end, |s|);
    if a < b then s[a..b] else ""
  }

  /** `s.slice(1, -1)`: drops the first and the last character; strings
      shorter than two characters become empty. */
  function DropEnds(s: string): (r: string)
    ensures |s| >= 2 ==> r == s[1..|s| - 1]
    ensures |s| < 2 ==> r == ""
  {
    Slice(s, 1, -1)
  }

  /** Removing the ends undoes wrapping a string in a pair of quote characters. */
  lemma DropEndsUnwraps(q: char, body: string)
    ensures DropEnds([q] + body + [q]) == body
  {
    var w := [q] + body + [q];
    assert w[1..|w| - 1] == body;
  }

  /** Concatenation, of strings and of any other sequences, is associative. */
  lemma ConcatAssociates<T>(a: seq<T>, b: seq<T>, c: seq<T>)
    ensures a + (b + c) == (a + b) + c
  {
  }

  /** `s.charCodeAt(k) === c`: false whenever `k` is outside the string
      (`charCodeAt` then yields `NaN`). */
  predicate CharAt(s: string, k: int, c: char) {
    0 <= k < |s| && s[k] == c
  }
}

=== FILE: Keywords.dfy ===
/** The fixed table from identifier text to keyword token kind. */
module Keywords {
  import opened Tokens

  const TextToKeyword: map<string, TokenKind> := map[
    "IF" := IfKeyword,
    "GET" := GetKeyword,
    "LENGTH" := LengthKeyword,
    "TRUE" := TrueKeyword,
    "FALSE" := FalseKeyword
  ]

  /** The upper-case words the table recognises. */
  const KeywordTexts: set<string> := {"IF", "GET", "LENGTH", "TRUE", "FALSE"}

  /** The five keys map to five distinct kinds, every one of them a keyword kind. */
  lemma TableIsKeywordBijection()
    ensures TextToKeyword.Keys == KeywordTexts
    ensures forall k :: k in TextToKeyword ==> IsKeyword(TextToKeyword[k])
    ensures forall k1, k2 :: k1 in TextToKeyword && k2 in TextToKeyword && k1 != k2 ==>
              TextToKeyword[k1] != TextToKeyword[k2]
    ensures forall kind :: IsKeyword(kind) ==> kind in TextToKeyword.Values
  {
  }

  /** Kind of a run of letters: its keyword when the text is exactly one of
      the table's keys (case-sensitive), `Identifier` otherwise. */
  function IdentifierKind(lexeme: string): (k: TokenKind)
    ensures k == IfKeyword <==> lexeme == "IF"
    ensures k == GetKeyword <==> lexeme == "GET"
    ensures k == LengthKeyword <==> lexeme == "LENGTH"
    ensures k == TrueKeyword <==> lexeme == "TRUE"
    ensures k == FalseKeyword <==> lexeme == "FALSE"
    ensures !IsKeyword(k) <==> k == Identifier
  {
    if lexeme in TextToKeyword then TextToKeyword[lexeme] else Identifier
  }
}

=== FILE: Lexer.dfy ===
/** The template lexer: strips the surrounding backticks, then alternates
    between literal-text runs and formula tokens until end of input. */
module Lexer {
  import opened Results
  import opened JsText
  import opened Tokens
  import opened Keywords

  datatype LexErrorKind = InvalidEqualityOperator | InvalidCharacter

  /** A fatal lexical error: the offending character and its column in the
      original template. */
  datatype LexError = LexError(kind: LexErrorKind, offending: char, column: int)

  /** Columns are recorded against the original template, whose leading
      backtick the scanner never sees. */
  const BacktickTranslation: int := 1

  predicate IsDigit(c: char) {
    '0' <= c <= '9'
  }

  predicate IsNonZeroDigit(c: char) {
    '1' <= c <= '9'
  }

  predicate IsIdentifierStart(c: char) {
    'A' <= c <= 'Z' || 'a' <= c <= 'z'
  }

  predicate IsIdentifierPart(c: char) {
    'A' <= c <= 'Z' || 'a' <= c <= 'z'
  }

  predicate IsQuote(c: char) {
    c == DoubleQuote || c == SingleQuote
  }

  /** The two-character formula opener `${` starts at index `k`. */
  predicate DollarBraceAt(s: string, k: int) {
    CharAt(s, k, '$') && CharAt(s, k + 1, '{')
  }

  /** `template` is delimited by backticks on both sides. */
  predicate Backticked(template: string) {
    |template| > 0 && template[0] == '`' && template[|template| - 1] == '`'
  }

  // ---------------------------------------------------------------------
  // Lexeme shapes: an independent description of what each kind looks like
  // ---------------------------------------------------------------------

  /** Literal text between formulas: never contains `${`. */
  predicate TextRunLexeme(s: string) {
    forall k :: 0 <= k < |s| ==> !DollarBraceAt(s, k)
  }

  /** A quoted string: opens with a quote and holds no other occurrence of
      that quote except, possibly, as its closing character. */
  predicate QuotedLexeme(s: string) {
    && |s| > 0
    && IsQuote(s[0])
    && forall k :: 0 < k < |s| - 1 ==> s[k] != s[0]
  }

  /** A quoted string that is closed by its own quote character. */
  predicate IsTerminatedQuote(s: string) {
    |s| >= 2 && s[|s| - 1] == s[0]
  }

  /** A numeric literal: a digit 1-9, then digits and at most one dot. */
  predicate NumericLexeme(s: string) {
    && |s| > 0
    && IsNonZeroDigit(s[0])
    && (forall k :: 0 <= k < |s| ==> IsDigit(s[k]) || s[k] == '.')
    && (forall i, j :: 0 <= i < j < |s| && s[i] == '.' ==> s[j] != '.')
  }

  predicate LetterRun(s: string) {
    |s| > 0 && forall k :: 0 <= k < |s| ==> IsIdentifierPart(s[k])
  }

  predicate AllSpaces(s: string) {
    forall k :: 0 <= k < |s| ==> s[k] == ' '
  }

  /** The text a formula-mode token of the given kind consists of. */
  predicate FormulaLexeme(kind: TokenKind, s: string) {
    match kind
    case Whitespace => |s| > 0 && AllSpaces(s)
    case StringLiteral => QuotedLexeme(s)
    case NumericLiteral => NumericLexeme(s)
    case DollarBrace => s == "${"
    case CloseBrace => s == "}" || s == "$"
    case OpenParen => s == "("
    case CloseParen => s == ")"
    case Comma => s == ","
    case LessThan => s == "<"
    case LessThanEquals => s == "<="
    case EqualityOperator => s == "==="
    case GreaterThan => s == ">"
    case GreaterThanEquals => s == ">="
    case Identifier | IfKeyword | GetKeyword | LengthKeyword | TrueKeyword | FalseKeyword =>
      LetterRun(s) && IdentifierKind(s) == kind
    case EndOfFile => false
  }

  /** `text[pos..end]` is a non-empty formula token of the given kind. */
  predicate LexemeAt(text: string, pos: int, end: int, kind: TokenKind) {
    0 <= pos < end <= |text| && FormulaLexeme(kind, text[pos..end])
  }

  /** A number lexeme `text[pos..end]` cannot be extended: the next
      character is no digit, and no dot unless the lexeme already has one. */
  predicate NumberStopsAt(text: string, pos: int, end: int) {
    && 0 <= pos <= end <= |text|
    && (end == |text| || (!IsDigit(text[end]) && (text[end] != '.' || '.' in text[pos..end])))
  }

  /** A quoted lexeme `text[pos..end]` without its closing quote runs to
      the end of the text. */
  predicate QuoteStopsAt(text: string, pos: int, end: int) {
    0 <= pos <= end <= |text| && (!IsTerminatedQuote(text[pos..end]) ==> end == |text|)
  }

  /** Every emitted token has the shape of its kind: end of file is empty,
      a string literal is a text run or a quoted string, the rest are
      formula tokens. */
  predicate LexemeFits(t: Token) {
    || (t.kind == EndOfFile && t.lexeme == "")
    || (t.kind == StringLiteral && TextRunLexeme(t.lexeme))
    || FormulaLexeme(t.kind, t.lexeme)
  }

  /** The characters that start a punctuation or operator token in formula mode. */
  predicate IsOperatorStart(c: char) {
    c == '$' || c == '}' || c == '(' || c == ')' || c == ',' || c == '<' || c == '=' || c == '>'
  }

  /** The characters on which formula mode does not raise "Invalid character". */
  predicate StartsFormulaToken(c: char) {
    c == ' ' || IsQuote(c) || IsOperatorStart(c) || IsNonZeroDigit(c) || IsIdentifierStart(c)
  }

  // ---------------------------------------------------------------------
  // Sub-scanners
  // ---------------------------------------------------------------------

  /** End of a literal-text run: the first `${` at or after `pos`, or the
      end of the text. */
  function TextRunEnd(text: string, pos: nat): (end: nat)
    requires pos <= |text|
    ensures pos <= end <= |text|
    ensures forall k :: pos <= k < end ==> !DollarBraceAt(text, k)
    ensures end == |text| || DollarBraceAt(text, end)
    decreases |text| - pos
  {
    if pos >= |text| then pos
    else if DollarBraceAt(text, pos) then pos
    else TextRunEnd(text, pos + 1)
  }

  /** End of the maximal run of spaces starting at `pos`. */
  function SpaceRunEnd(text: string, pos: nat): (end: nat)
    requires pos < |text| && text[pos] == ' '
    ensures pos < end <= |text|
    ensures forall k :: pos <= k < end ==> text[k] == ' '
    ensures end == |text| || text[end] != ' '
    decreases |text| - pos
  {
    if CharAt(text, pos + 1, ' ') then SpaceRunEnd(text, pos + 1) else pos + 1
  }

  /** Scans the body of a quoted string from `k`: stops just after the first
      `quote`, or at the end of the text when there is none. */
  function QuoteCloseFrom(text: string, quote: char, k: nat): (end: nat)
    requires k <= |text|
    ensures k <= end <= |text|
    ensures forall j :: k <= j < end - 1 ==> text[j] != quote
    ensures || (end > k && text[end - 1] == quote)
            || (end == |text| && forall j :: k <= j < |text| ==> text[j] != quote)
    decreases |text| - k
  {
    if k >= |text| then k
    else if text[k] == quote then k + 1
    else QuoteCloseFrom(text, quote, k + 1)
  }

  /** End of the maximal run of decimal digits starting at `k`. */
  function DigitsEnd(text: string, k: nat): (end: nat)
    requires k <= |text|
    ensures k <= end <= |text|
    ensures forall j :: k <= j < end ==> IsDigit(text[j])
    ensures end == |text| || !IsDigit(text[end])
    decreases |text| - k
  {
    if k < |text| && IsDigit(text[k]) then DigitsEnd(text, k + 1) else k
  }

  /** End of the maximal run of letters starting at `k`. */
  function LettersEnd(text: string, k: nat): (end: nat)
    requires k <= |text|
    ensures k <= end <= |text|
    ensures forall j :: k <= j < end ==> IsIdentifierPart(text[j])
    ensures end == |text| || !IsIdentifierPart(text[end])
    decreases |text| - k
  {
    if k < |text| && IsIdentifierPart(text[k]) then LettersEnd(text, k + 1) else k
  }

  /** A numeric literal: an integer fragment, then optionally a dot and a
      fractional fragment. */
  function NumberEnd(text: string, pos: nat): (end: nat)
    requires pos < |text| && IsNonZeroDigit(text[pos])
    ensures pos < end <= |text|
    ensures LexemeAt(text, pos, end, NumericLiteral)
    ensures NumberStopsAt(text, pos, end)
  {
    var e := DigitsEnd(text, pos);
    if CharAt(text, e, '.') then
      var f := DigitsEnd(text, e + 1);
      assert text[pos..f][e - pos] == '.';
      f
    else
      e
  }

  // ---------------------------------------------------------------------
  // One scan step
  // ---------------------------------------------------------------------

  /** Outcome of one scan: the token kind, where it ends and the mode the
      next scan starts in. */
  datatype Step = Step(kind: TokenKind, end: nat, insideFormula: bool)

  /** Scan in literal-text mode: the run up to the next `${` or the end. */
  function TextStep(text: string, pos: nat): (r: Step)
    requires pos < |text|
    ensures r.kind == StringLiteral && pos <= r.end <= |text|
    ensures forall k :: pos <= k < r.end ==> !DollarBraceAt(text, k)
    ensures r.end == |text| || DollarBraceAt(text, r.end)
    ensures r.insideFormula == (r.end < |text|)
  {
    var end := TextRunEnd(text, pos);
    Step(StringLiteral, end, end < |text|)
  }

  /** Scan in formula mode of a punctuation or operator token. */
  function OperatorStep(text: string, pos: nat): (r: Result<Step, LexError>)
    requires pos < |text|
    requires IsOperatorStart(text[pos])
    ensures r.Failure? <==> text[pos] == '=' && !(CharAt(text, pos + 1, '=') && CharAt(text, pos + 2, '='))
    ensures r.Failure? ==> r.error == LexError(InvalidEqualityOperator, '=', pos + BacktickTranslation)
    ensures r.Success? ==>
              && LexemeAt(text, pos, r.value.end, r.value.kind)
              && (r.value.insideFormula <==> r.value.kind != CloseBrace)
    ensures r.Success? && (r.value.kind.LessThan? || r.value.kind.GreaterThan?) ==> !CharAt(text, r.value.end, '=')
    ensures r.Success? && r.value.kind.CloseBrace? && text[pos] == '$' ==> !DollarBraceAt(text, pos)
  {
    var c := text[pos];
    assert text[pos..pos + 1] == [c];
    if c == '$' && CharAt(text, pos + 1, '{') then
      Success(Step(DollarBrace, pos + 2, true))
    else if c == '$' || c == '}' then
      // a `$` without `{` falls through to the close-brace case
      Success(Step(CloseBrace, pos + 1, false))
    else if c == '(' then
      Success(Step(OpenParen, pos + 1, true))
    else if c == ')' then
      Success(Step(CloseParen, pos + 1, true))
    else if c == ',' then
      Success(Step(Comma, pos + 1, true))
    else if c == '<' then
      if CharAt(text, pos + 1, '=') then Success(Step(LessThanEquals, pos + 2, true))
      else Success(Step(LessThan, pos + 1, true))
    else if c == '=' then
      if CharAt(text, pos + 1, '=') && CharAt(text, pos + 2, '=') then Success(Step(EqualityOperator, pos + 3, true))
      else Failure(LexError(InvalidEqualityOperator, c, pos + BacktickTranslation))
    else
      assert c == '>';
      if CharAt(text, pos + 1, '=') then Success(Step(GreaterThanEquals, pos + 2, true))
      else Success(Step(GreaterThan, pos + 1, true))
  }

  /** A run of spaces in formula mode. */
  function SpaceStep(text: string, pos: nat): (r: Step)
    requires pos < |text| && text[pos] == ' '
    ensures r.kind == Whitespace && r.insideFormula && pos < r.end <= |text|
    ensures LexemeAt(text, pos, r.end, r.kind)
    ensures r.end == |text| || text[r.end] != ' '
  {
    var end := SpaceRunEnd(text, pos);
    assert AllSpaces(text[pos..end]);
    Step(Whitespace, end, true)
  }

  /** A quoted string in formula mode, up to its closing quote or the end. */
  function QuoteStep(text: string, pos: nat): (r: Step)
    requires pos < |text| && IsQuote(text[pos])
    ensures r.kind == StringLiteral && r.insideFormula && pos < r.end <= |text|
    ensures LexemeAt(text, pos, r.end, r.kind)
    ensures QuoteStopsAt(text, pos, r.end)
  {
    var end := QuoteCloseFrom(text, text[pos], pos + 1);
    assert text[pos..end][0] == text[pos];
    Step(StringLiteral, end, true)
  }

  /** A number in formula mode. */
  function NumberStep(text: string, pos: nat): (r: Step)
    requires pos < |text| && IsNonZeroDigit(text[pos])
    ensures r.kind == NumericLiteral && r.insideFormula && pos < r.end <= |text|
    ensures LexemeAt(text, pos, r.end, r.kind)
    ensures NumberStopsAt(text, pos, r.end)
  {
    Step(NumericLiteral, NumberEnd(text, pos), true)
  }

  /** A word in formula mode: a keyword or an identifier. */
  function WordStep(text: string, pos: nat): (r: Step)
    requires pos < |text| && IsIdentifierStart(text[pos])
    ensures IsWord(r.kind)
    ensures r.insideFormula && pos < r.end <= |text|
    ensures LexemeAt(text, pos, r.end, r.kind)
    ensures r.end == |text| || !IsIdentifierPart(text[r.end])
  {
    var end := LettersEnd(text, pos + 1);
    assert LetterRun(text[pos..end]);
    Step(IdentifierKind(text[pos..end]), end, true)
  }

  /** Scan in formula mode of a run token: spaces, a quoted string, a number
      or a word. */
  function RunStep(text: string, pos: nat): (r: Step)
    requires pos < |text|
    requires text[pos] == ' ' || IsQuote(text[pos]) || IsNonZeroDigit(text[pos]) || IsIdentifierStart(text[pos])
    ensures pos < r.end <= |text|
    ensures r.insideFormula
    ensures LexemeAt(text, pos, r.end, r.kind)
    ensures r.kind.Whitespace? ==> r.end == |text| || text[r.end] != ' '
    ensures IsWord(r.kind) ==>
              r.end == |text| || !IsIdentifierPart(text[r.end])
    ensures r.kind.NumericLiteral? ==> NumberStopsAt(text, pos, r.end)
    ensures r.kind.StringLiteral? ==> QuoteStopsAt(text, pos, r.end)
  {
    var c := text[pos];
    if c == ' ' then SpaceStep(text, pos)
    else if IsQuote(c) then QuoteStep(text, pos)
    else if IsNonZeroDigit(c) then NumberStep(text, pos)
    else WordStep(text, pos)
  }

  /** One call of the scanner at `pos` (before end of text) in the given mode. */
  function ScanStep(text: string, pos: nat, insideFormula: bool): (r: Result<Step, LexError>)
    requires pos < |text|
    ensures r.Success? ==> pos <= r.value.end <= |text|
    ensures r.Success? && r.value.end == pos ==> !insideFormula && r.value.insideFormula
    ensures !insideFormula ==> r == Success(TextStep(text, pos))
    ensures r.Failure? ==> insideFormula && r.error.column == pos + BacktickTranslation && r.error.offending == text[pos]
    ensures insideFormula && r.Success? ==>
              LexemeAt(text, pos, r.value.end, r.value.kind) && (r.value.insideFormula <==> r.value.kind != CloseBrace)
  {
    if !insideFormula then
      Success(TextStep(text, pos))
    else
      var c := text[pos];
      if IsOperatorStart(c) then OperatorStep(text, pos)
      else if c == ' ' || IsQuote(c) || IsNonZeroDigit(c) || IsIdentifierStart(c) then Success(RunStep(text, pos))
      else Failure(LexError(InvalidCharacter, c, pos + BacktickTranslation))
  }

  /** Formula mode fails exactly on a character that starts no token and on
      an `=` that is not the first of three; the error says which. */
  lemma ScanStepErrors(text: string, pos: nat)
    requires pos < |text|
    ensures ScanStep(text, pos, true).Failure? <==>
              !StartsFormulaToken(text[pos]) ||
              (text[pos] == '=' && !(CharAt(text, pos + 1, '=') && CharAt(text, pos + 2, '=')))
    ensures ScanStep(text, pos, true).Failure? ==>
              (ScanStep(text, pos, true).error.kind == InvalidEqualityOperator <==> text[pos] == '=')
  {
  }

  // ---------------------------------------------------------------------
  // The token stream
  // ---------------------------------------------------------------------

  /** A run free of `${` openers in `text` is a text-run lexeme. */
  lemma TextRunFits(text: string, pos: nat, end: nat)
    requires pos <= end <= |text|
    requires forall k :: pos <= k < end ==> !DollarBraceAt(text, k)
    ensures TextRunLexeme(text[pos..end])
  {
    var s := text[pos..end];
    forall k | 0 <= k < |s|
      ensures !DollarBraceAt(s, k)
    {
      assert !DollarBraceAt(text, pos + k);
    }
  }

  /** The lexemes of a token list, concatenated in order. */
  function Lexemes(ts: seq<Token>): string {
    if |ts| == 0 then "" else ts[0].lexeme + Lexemes(ts[1..])
  }

  /** Exactly one end-of-file token, and it comes last. */
  predicate EofTerminated(ts: seq<Token>) {
    && |ts| > 0
    && ts[|ts| - 1].kind == EndOfFile
    && forall i :: 0 <= i < |ts| - 1 ==> ts[i].kind != EndOfFile
  }

  /** Token `t` occupies a column range of the template whose backtick-free
      body is `text`, and its lexeme is exactly the text in that range. */
  predicate InText(text: string, t: Token) {
    && BacktickTranslation <= t.columnFrom <= t.columnTo <= |text| + BacktickTranslation
    && t.lexeme == text[t.columnFrom - BacktickTranslation .. t.columnTo - BacktickTranslation]
  }

  /** The tokens tile `text` from `from` to its end without gap or overlap. */
  predicate Tiles(text: string, from: nat, ts: seq<Token>)
    requires from <= |text|
  {
    && |ts| > 0
    && ts[0].columnFrom == from + BacktickTranslation
    && ts[|ts| - 1].columnTo == |text| + BacktickTranslation
    && (forall i :: 0 <= i < |ts| ==> InText(text, ts[i]))
    && (forall i :: 0 <= i < |ts| - 1 ==> ts[i].columnTo == ts[i + 1].columnFrom)
    && Lexemes(ts) == text[from..]
  }

  /** What a successful scan from `from` delivers: one end-of-file token,
      last; tokens tiling `text[from..]`; every token shaped as its kind. */
  predicate WellFormedScan(text: string, from: nat, ts: seq<Token>)
    requires from <= |text|
  {
    && EofTerminated(ts)
    && Tiles(text, from, ts)
    && (forall t :: t in ts ==> LexemeFits(t))
  }

  /** The scan loop from position `pos` in the given mode, up to and
      including the end-of-file token. A zero-length text run only switches
      the mode, every other step consumes input, hence the measure. */
  function Scan(text: string, pos: nat, insideFormula: bool): Result<seq<Token>, LexError>
    requires pos <= |text|
    decreases 2 * (|text| - pos) + (if insideFormula then 0 else 1)
  {
    if pos >= |text| then
      Success([Token("", EndOfFile, pos + BacktickTranslation, pos + BacktickTranslation)])
    else
      var step :- ScanStep(text, pos, insideFormula);
      var token := Token(text[pos..step.end], step.kind, pos + BacktickTranslation, step.end + BacktickTranslation);
      var rest :- Scan(text, step.end, step.insideFormula);
      Success([token] + rest)
  }

  /** A successful scan ends with its only end-of-file token, tiles the
      text from `pos` to the end, and every token has its kind's shape. */
  lemma {:induction false} ScanIsWellFormed(text: string, pos: nat, insideFormula: bool)
    requires pos <= |text| && Scan(text, pos, insideFormula).Success?
    ensures WellFormedScan(text, pos, Scan(text, pos, insideFormula).value)
    decreases 2 * (|text| - pos) + (if insideFormula then 0 else 1)
  {
    if pos < |text| {
      ScanUnfolds(text, pos, insideFormula);
      var step := ScanStep(text, pos, insideFormula).value;
      var token := Token(text[pos..step.end], step.kind, pos + BacktickTranslation, step.end + BacktickTranslation);
      var rest := Scan(text, step.end, step.insideFormula).value;
      ScanIsWellFormed(text, step.end, step.insideFormula);
      StepTokenFits(text, pos, insideFormula, step);
      PrependToken(text, pos, step.end, token, rest, Scan(text, pos, insideFormula).value);
    } else {
      EndOfFileScan(text, insideFormula);
    }
  }

  /** At the end of the text the scan is the lone end-of-file token. */
  lemma EndOfFileScan(text: string, insideFormula: bool)
    ensures WellFormedScan(text, |text|, Scan(text, |text|, insideFormula).value)
  {
    var eof := Token("", EndOfFile, |text| + BacktickTranslation, |text| + BacktickTranslation);
    assert Scan(text, |text|, insideFormula).value == [eof];
    assert Lexemes([eof]) == "" + Lexemes([]);
  }

  /** One step of a successful scan: the step's token, then the rest. */
  lemma ScanUnfolds(text: string, pos: nat, insideFormula: bool)
    requires pos < |text| && Scan(text, pos, insideFormula).Success?
    ensures ScanStep(text, pos, insideFormula).Success?
    ensures var step := ScanStep(text, pos, insideFormula).value;
      && Scan(text, step.end, step.insideFormula).Success?
      && Scan(text, pos, insideFormula).value
         == [Token(text[pos..step.end], step.kind, pos + BacktickTranslation, step.end + BacktickTranslation)]
            + Scan(text, step.end, step.insideFormula).value
  {
  }

  /** A failed scan names a character of the text at or after `pos`, by its
      column in the template. */
  lemma {:induction false} ScanErrorIsLocated(text: string, pos: nat, insideFormula: bool)
    requires pos <= |text| && Scan(text, pos, insideFormula).Failure?
    ensures var e := Scan(text, pos, insideFormula).error;
      pos + BacktickTranslation <= e.column <= |text| && text[e.column - BacktickTranslation] == e.offending
    decreases 2 * (|text| - pos) + (if insideFormula then 0 else 1)
  {
    var step := ScanStep(text, pos, insideFormula);
    if step.Success? {
      ScanErrorIsLocated(text, step.value.end, step.value.insideFormula);
    }
  }

  /** The token a successful scan step emits has the shape of its kind. */
  lemma StepTokenFits(text: string, pos: nat, insideFormula: bool, step: Step)
    requires pos < |text| && ScanStep(text, pos, insideFormula) == Success(step)
    ensures pos <= step.end <= |text|
    ensures step.kind != EndOfFile
    ensures LexemeFits(Token(text[pos..step.end], step.kind, pos + BacktickTranslation, step.end + BacktickTranslation))
  {
    if !insideFormula {
      TextRunFits(text, pos, step.end);
    }
  }

  /** Putting the token for `text[pos..end]` in front of a stream that tiles
      from `end` gives a stream that tiles from `pos`. */
  lemma PrependToken(text: string, pos: nat, end: nat, token: Token, rest: seq<Token>, ts: seq<Token>)
    requires pos <= end <= |text| && pos < |text|
    requires token == Token(text[pos..end], token.kind, pos + BacktickTranslation, end + BacktickTranslation)
    requires token.kind != EndOfFile && LexemeFits(token)
    requires WellFormedScan(text, end, rest)
    requires ts == [token] + rest
    ensures WellFormedScan(text, pos, ts)
  {
    assert ts[1..] == rest;
    assert text[pos..end] + text[end..] == text[pos..];
    assert forall i :: 1 <= i < |ts| ==> ts[i] == rest[i - 1];
  }

  /** The lexer entry point: no tokens at all unless the template is
      backtick-delimited; otherwise the scan of its body, in text mode. */
  function Tokenize(template: string): (r: Result<seq<Token>, LexError>)
    ensures !Backticked(template) ==> r == Success([])
  {
    if !Backticked(template) then Success([])
    else Scan(DropEnds(template), 0, false)
  }

  /** A successful lexing of a delimited template: exactly one end-of-file
      token, last; columns start at 1 and chain without gaps; each lexeme is
      the template between its columns; the lexemes rebuild the template
      without its backticks. */
  lemma TokenizeTilesTemplate(template: string)
    requires Backticked(template) && Tokenize(template).Success?
    ensures var ts := Tokenize(template).value;
      && EofTerminated(ts)
      && ts[0].columnFrom == 1
      && (forall i :: 0 <= i < |ts| - 1 ==> ts[i].columnTo == ts[i + 1].columnFrom)
      && (forall i :: 0 <= i < |ts| ==>
            1 <= ts[i].columnFrom <= ts[i].columnTo <= |template| &&
            ts[i].lexeme == template[ts[i].columnFrom..ts[i].columnTo])
      && Lexemes(ts) == DropEnds(template)
  {
    ScanIsWellFormed(DropEnds(template), 0, false);
    TemplateColumns(template, Tokenize(template).value);
  }

  /** A lexical error names a character strictly inside the backticks, by
      its column in the template. */
  lemma TokenizeErrorIsLocated(template: string)
    requires Tokenize(template).Failure?
    ensures var e := Tokenize(template).error;
      Backticked(template) && 1 <= e.column < |template| - 1 && template[e.column] == e.offending
  {
    ScanErrorIsLocated(DropEnds(template), 0, false);
  }

  /** Columns in the backtick-free body are columns in the template. */
  lemma TemplateColumns(template: string, ts: seq<Token>)
    requires Backticked(template)
    requires forall i :: 0 <= i < |ts| ==> InText(DropEnds(template), ts[i])
    ensures forall i :: 0 <= i < |ts| ==>
              1 <= ts[i].columnFrom <= ts[i].columnTo <= |template| &&
              ts[i].lexeme == template[ts[i].columnFrom..ts[i].columnTo]
  {
    forall i | 0 <= i < |ts|
      ensures 1 <= ts[i].columnFrom <= ts[i].columnTo <= |template|
      ensures ts[i].lexeme == template[ts[i].columnFrom..ts[i].columnTo]
    {
      TokenInTemplate(template, ts[i]);
    }
  }

  /** One token's columns in the body, read as columns in the template. */
  lemma TokenInTemplate(template: string, t: Token)
    requires Backticked(template) && InText(DropEnds(template), t)
    ensures 1 <= t.columnFrom <= t.columnTo <= |template|
    ensures t.lexeme == template[t.columnFrom..t.columnTo]
  {
    if |template| >= 2 {
      ShiftedSlice(template, t.columnFrom, t.columnTo);
    }
  }

  /** A slice of the backtick-free body is the slice of the template one
      column further on. */
  lemma ShiftedSlice(template: string, a: int, b: int)
    requires |template| >= 2 && 1 <= a <= b <= |template| - 1
    ensures DropEnds(template)[a - 1..b - 1] == template[a..b]
  {
    var text := DropEnds(template);
    assert text == template[1..|template| - 1];
    forall j | 0 <= j < b - a
      ensures text[a - 1..b - 1][j] == template[a..b][j]
    {
      assert text[a - 1 + j] == template[a + j];
    }
  }

  // ---------------------------------------------------------------------
  // How the two modes hand over to each other
  // ---------------------------------------------------------------------

  /** Outside a formula the scanner emits one text run, free of `${`; the
      token after it is the formula opener or the end of file. */
  lemma TextRunIsFollowedByFormulaOrEnd(text: string, pos: nat)
    requires pos < |text|
    requires Scan(text, pos, false).Success?
    ensures var ts := Scan(text, pos, false).value;
      && |ts| >= 2
      && ts[0].kind == StringLiteral
      && TextRunLexeme(ts[0].lexeme)
      && (ts[1].kind == DollarBrace || ts[1].kind == EndOfFile)
      && (ts[1].kind == DollarBrace ==> FormulaLexeme(DollarBrace, ts[1].lexeme))
  {
    var ts := Scan(text, pos, false).value;
    var step := TextStep(text, pos);
    var rest := Scan(text, step.end, step.insideFormula);
    assert ts == [ts[0]] + rest.value;
    TextRunFits(text, pos, step.end);
    if step.end < |text| {
      var next := ScanStep(text, step.end, true);
      assert next == OperatorStep(text, step.end);
      assert rest.value[0].kind == next.value.kind;
    }
  }

  /** `}` -- and, by fall-through, a `$` not followed by `{` -- is a
      one-character close-brace token after which the scanner is back in
      literal-text mode. */
  lemma CloseBraceLeavesFormula(text: string, pos: nat)
    requires pos < |text|
    requires text[pos] == '}' || (text[pos] == '$' && !DollarBraceAt(text, pos))
    requires Scan(text, pos, true).Success?
    ensures var ts := Scan(text, pos, true).value;
      && |ts| >= 2
      && ts[0] == Token([text[pos]], CloseBrace, pos + BacktickTranslation, pos + 1 + BacktickTranslation)
      && (ts[1].kind == EndOfFile || (ts[1].kind == StringLiteral && TextRunLexeme(ts[1].lexeme)))
      && (pos + 1 < |text| ==> ts[1].kind == StringLiteral)
  {
    var ts := Scan(text, pos, true).value;
    assert ScanStep(text, pos, true) == OperatorStep(text, pos);
    assert text[pos..pos + 1] == [text[pos]];
    var rest := Scan(text, pos + 1, false);
    assert ts == [ts[0]] + rest.value;
    if pos + 1 < |text| {
      TextRunIsFollowedByFormulaOrEnd(text, pos + 1);
    }
  }

  /** Inside a formula a maximal run of spaces is exactly one whitespace
      token: the token after it does not start with a space. */
  lemma SpaceRunIsOneToken(text: string, pos: nat)
    requires pos < |text| && text[pos] == ' '
    requires Scan(text, pos, true).Success?
    ensures var ts := Scan(text, pos, true).value;
      && |ts| >= 2
      && ts[0].kind == Whitespace
      && |ts[0].lexeme| > 0 && AllSpaces(ts[0].lexeme)
      && (ts[1].lexeme == "" || ts[1].lexeme[0] != ' ')
  {
    var ts := Scan(text, pos, true).value;
    var step := RunStep(text, pos);
    assert ScanStep(text, pos, true) == Success(step);
    var rest := Scan(text, step.end, true);
    assert ts == [ts[0]] + rest.value;
    ScanIsWellFormed(text, step.end, true);
    assert InText(text, rest.value[0]);
  }

  /** A quoted-string token starts with its quote and ends just after the
      matching quote, or at the end of the input when the quote is never
      closed. */
  lemma QuotedStringToken(text: string, pos: nat)
    requires pos < |text| && IsQuote(text[pos])
    requires Scan(text, pos, true).Success?
    ensures var t := Scan(text, pos, true).value[0];
      && t.kind == StringLiteral
      && QuotedLexeme(t.lexeme)
      && t.lexeme[0] == text[pos]
      && (IsTerminatedQuote(t.lexeme) || t.columnTo == |text| + BacktickTranslation)
  {
    var step := RunStep(text, pos);
    assert ScanStep(text, pos, true) == Success(step);
  }

  /** A numeric token is a non-zero digit followed by digits and at most one
      dot, and it is maximal. */
  lemma NumericToken(text: string, pos: nat)
    requires pos < |text| && IsNonZeroDigit(text[pos])
    requires Scan(text, pos, true).Success?
    ensures var t := Scan(text, pos, true).value[0];
      var end := t.columnTo - BacktickTranslation;
      && t.kind == NumericLiteral
      && NumericLexeme(t.lexeme)
      && pos < end <= |text|
      && (end == |text| || (!IsDigit(text[end]) && (text[end] != '.' || '.' in t.lexeme)))
  {
    var step := RunStep(text, pos);
    assert ScanStep(text, pos, true) == Success(step);
  }

  /** A run of letters is a keyword exactly when it is one of the table's
      keys, and an identifier otherwise; the run is maximal. */
  lemma WordToken(text: string, pos: nat)
    requires pos < |text| && IsIdentifierStart(text[pos])
    ensures Scan(text, pos, true).Success? ==>
      var t := Scan(text, pos, true).value[0];
      var end := t.columnTo - BacktickTranslation;
      && LetterRun(t.lexeme)
      && (t.lexeme in TextToKeyword ==> t.kind == TextToKeyword[t.lexeme])
      && (t.lexeme !in TextToKeyword ==> t.kind == Identifier)
      && (end == |text| || !IsIdentifierPart(text[end]))
  {
    if Scan(text, pos, true).Success? {
      ScanUnfolds(text, pos, true);
      var step := WordStep(text, pos);
      WordScanStep(text, pos);
      var t := Scan(text, pos, true).value[0];
      assert t == Token(text[pos..step.end], step.kind, pos + BacktickTranslation, step.end + BacktickTranslation);
      assert t.columnTo - BacktickTranslation == step.end;
      assert step.end == |text| || !IsIdentifierPart(text[step.end]);
      assert FormulaLexeme(step.kind, t.lexeme);
    }
  }

  /** In formula mode a letter is scanned as a word. */
  lemma WordScanStep(text: string, pos: nat)
    requires pos < |text| && IsIdentifierStart(text[pos])
    ensures ScanStep(text, pos, true) == Success(WordStep(text, pos))
  {
    var c := text[pos];
    assert !IsOperatorStart(c) && c != ' ' && !IsQuote(c) && !IsNonZeroDigit(c);
    assert RunStep(text, pos) == WordStep(text, pos);
  }

  /** Inside a formula a `0`, or any other character that starts no token,
      aborts the scan at that character's column. */
  lemma InvalidCharacterIsFatal(text: string, pos: nat)
    requires pos < |text| && !StartsFormulaToken(text[pos])
    ensures Scan(text, pos, true) == Failure(LexError(InvalidCharacter, text[pos], pos + BacktickTranslation))
  {
  }

  /** `=` must be the first of exactly three: `===` is one token, anything
      shorter is fatal. */
  lemma EqualityOperatorNeedsThree(text: string, pos: nat)
    requires pos < |text| && text[pos] == '='
    ensures CharAt(text, pos + 1, '=') && CharAt(text, pos + 2, '=') ==>
              Scan(text, pos, true).Success? ==>
                Scan(text, pos, true).value[0] == Token("===", EqualityOperator, pos + BacktickTranslation, pos + 3 + BacktickTranslation)
    ensures !(CharAt(text, pos + 1, '=') && CharAt(text, pos + 2, '=')) ==>
              Scan(text, pos, true) == Failure(LexError(InvalidEqualityOperator, '=', pos + BacktickTranslation))
  {
    if CharAt(text, pos + 1, '=') && CharAt(text, pos + 2, '=') {
      assert text[pos..pos + 3] == "===";
    }
  }
}

=== FILE: ParseTree.dfy ===
/** The parser's syntax tree and the shapes a successful parse produces. */
module ParseTree {

  /** Every node kind the parser's tree type declares; only some of them are
      ever built by the parser. */
  datatype NodeKind =
    | SourceFile
    | TemplateString
    | GetCall
    | LengthCall
    | EqualityOperator
    | GreaterThanToken
    | GreaterThanEqualsToken
    | LessThanToken
    | LessThanEqualsToken
    | StringLiteral
    | NumericLiteral
    | EndOfFileToken
    | Formula
    | BinaryExpression
    | IfKeyword

  /** A node: its source text, kind, column range and owned children. */
  datatype Node = Node(value: string, kind: NodeKind, columnFrom: int, columnTo: int, children: seq<Node>)

  predicate IsLeaf(n: Node, kind: NodeKind) {
    n.kind == kind && n.children == []
  }

  /** `GET(...)`: exactly one child, the string literal naming the variable. */
  predicate IsGetCall(n: Node) {
    n.kind == GetCall && |n.children| == 1 && IsLeaf(n.children[0], StringLiteral)
  }

  /** `LENGTH(...)`: exactly one child, a `GET` call. */
  predicate IsLengthCall(n: Node) {
    n.kind == LengthCall && |n.children| == 1 && IsGetCall(n.children[0])
  }

  /** The values a formula body can hold. */
  predicate IsFormulaValue(n: Node) {
    IsLeaf(n, StringLiteral) || IsLeaf(n, NumericLiteral) || IsGetCall(n) || IsLengthCall(n)
  }

  /** `${...}`: at most one value. */
  predicate IsFormula(n: Node) {
    n.kind == Formula && |n.children| <= 1 && forall c :: c in n.children ==> IsFormulaValue(c)
  }

  /** The template body: literal text runs and formulas, in source order. */
  predicate IsTemplateString(n: Node) {
    n.kind == TemplateString && forall c :: c in n.children ==> IsLeaf(c, StringLiteral) || IsFormula(c)
  }

  /** The root: the end-of-file node, preceded by the template body unless
      the template is empty. */
  predicate IsSourceFile(n: Node) {
    && n.kind == SourceFile
    && (|n.children| == 1 || |n.children| == 2)
    && IsLeaf(n.children[|n.children| - 1], EndOfFileToken)
    && (|n.children| == 2 ==> IsTemplateString(n.children[0]))
  }
}

=== FILE: Parser.dfy ===
/** Recursive-descent parser from the whitespace-free token list to the
    syntax tree. The parser's mutable cursor becomes an explicit token index
    that every parse function takes and returns. */
module Parser {
  import opened Results
  import opened JsText
  import opened Tokens
  import opened ParseTree

  datatype ParseErrorKind =
    | MissingEndOfFile
    | UnparsedTokens
    | UnexpectedSourceToken
    | MissingFormulaCloseBrace
    | UnexpectedFormulaBodyToken
    | TooManyFormulaArguments
    | InvalidIfParentheses
    | InvalidGetParentheses
    | GetArgumentNotString
    | LengthArgumentNotGet
    | WrongLengthParentheses

  /** A fatal parse error and the column it reports. */
  datatype ParseError = ParseError(kind: ParseErrorKind, column: int)

  /** The token list, once filtered, always ends with the end-of-file token
      that the source file rule checks for first. */
  predicate EndsWithEof(ts: seq<Token>) {
    |ts| > 0 && ts[|ts| - 1].kind == EndOfFile
  }

  // ---------------------------------------------------------------------
  // Whitespace filtering
  // ---------------------------------------------------------------------

  /** The token list with every whitespace token dropped, order kept. */
  function WithoutWhitespace(tokens: seq<Token>): (r: seq<Token>)
    ensures |r| <= |tokens|
  {
    if |tokens| == 0 then [] else Kept(tokens[0]) + WithoutWhitespace(tokens[1..])
  }

  /** The token itself unless it is whitespace. */
  function Kept(t: Token): seq<Token> {
    if t.kind == Whitespace then [] else [t]
  }

  lemma FilterCons(t: Token, rest: seq<Token>)
    ensures WithoutWhitespace([t] + rest) == Kept(t) + WithoutWhitespace(rest)
  {
    assert ([t] + rest)[1..] == rest;
  }

  /** The filtered list holds exactly the tokens that are not whitespace. */
  lemma {:induction false} WithoutWhitespaceMembers(tokens: seq<Token>)
    ensures forall t :: t in WithoutWhitespace(tokens) <==> t in tokens && t.kind != Whitespace
    decreases |tokens|
  {
    if |tokens| > 0 {
      WithoutWhitespaceMembers(tokens[1..]);
      assert tokens == [tokens[0]] + tokens[1..];
    }
  }

  /** Filtering distributes over concatenation, so it keeps the relative
      order of the tokens it retains. */
  lemma {:induction false} WithoutWhitespaceAppend(a: seq<Token>, b: seq<Token>)
    ensures WithoutWhitespace(a + b) == WithoutWhitespace(a) + WithoutWhitespace(b)
    decreases |a|
  {
    if |a| == 0 {
      assert a + b == b;
    } else {
      var t, rest := a[0], a[1..];
      assert a == [t] + rest;
      calc {
        WithoutWhitespace(a + b);
        { assert a + b == [t] + (rest + b); }
        WithoutWhitespace([t] + (rest + b));
        { FilterCons(t, rest + b); }
        Kept(t) + WithoutWhitespace(rest + b);
        { WithoutWhitespaceAppend(rest, b); }
        Kept(t) + (WithoutWhitespace(rest) + WithoutWhitespace(b));
        (Kept(t) + WithoutWhitespace(rest)) + WithoutWhitespace(b);
        { FilterCons(t, rest); }
        WithoutWhitespace(a) + WithoutWhitespace(b);
      }
    }
  }

  /** A list with no whitespace is left as it is. */
  lemma {:induction false} WithoutWhitespaceKeepsClean(tokens: seq<Token>)
    requires forall t :: t in tokens ==> t.kind != Whitespace
    ensures WithoutWhitespace(tokens) == tokens
    decreases |tokens|
  {
    if |tokens| > 0 {
      assert tokens == [tokens[0]] + tokens[1..];
      WithoutWhitespaceKeepsClean(tokens[1..]);
    }
  }

  /** Filtering twice is filtering once. */
  lemma WithoutWhitespaceIdempotent(tokens: seq<Token>)
    ensures WithoutWhitespace(WithoutWhitespace(tokens)) == WithoutWhitespace(tokens)
  {
    WithoutWhitespaceMembers(tokens);
    WithoutWhitespaceKeepsClean(WithoutWhitespace(tokens));
  }

  // ---------------------------------------------------------------------
  // Token searches
  // ---------------------------------------------------------------------

  /** The least index at or after `from` holding a token of `kind`. */
  function FindTokenIndexFrom(ts: seq<Token>, kind: TokenKind, from: nat): (r: Option<nat>)
    ensures r.Some? ==>
              && from <= r.value < |ts|
              && ts[r.value].kind == kind
              && forall k :: from <= k < r.value ==> ts[k].kind != kind
    ensures r.None? ==> forall k :: from <= k < |ts| ==> ts[k].kind != kind
    decreases |ts| - from
  {
    if from >= |ts| then None
    else if ts[from].kind == kind then Some(from)
    else FindTokenIndexFrom(ts, kind, from + 1)
  }

  /** `(` counts +1, `)` counts -1, anything else 0. */
  function ParenDelta(t: Token): int {
    if t.kind == OpenParen then 1 else if t.kind == CloseParen then -1 else 0
  }

  /** Open parentheses minus close parentheses among `ts[from..k]`. */
  function Balance(ts: seq<Token>, from: nat, k: nat): int
    requires from <= k <= |ts|
    decreases k - from
  {
    if k == from then 0 else Balance(ts, from, k - 1) + ParenDelta(ts[k - 1])
  }

  /** Index `k` holds a `)` that closes the group opened just before `from`. */
  predicate ClosesAt(ts: seq<Token>, from: nat, k: nat) {
    from <= k < |ts| && ts[k].kind == CloseParen && Balance(ts, from, k) == 0
  }

  /** Some `)` closes the group opened just before `from`. */
  predicate HasClosing(ts: seq<Token>, from: nat) {
    exists k :: from <= k < |ts| && ClosesAt(ts, from, k)
  }

  /** The depth-counting scan of `findClosingToken` from index `i`. */
  function FindClosingFrom(ts: seq<Token>, from: nat, i: nat, depth: nat): (r: Option<nat>)
    requires from <= i <= |ts|
    requires depth == Balance(ts, from, i)
    requires forall k :: from <= k < i ==> !ClosesAt(ts, from, k)
    ensures r.Some? ==> ClosesAt(ts, from, r.value) && forall k :: from <= k < r.value ==> !ClosesAt(ts, from, k)
    ensures r.None? ==> forall k :: from <= k < |ts| ==> !ClosesAt(ts, from, k)
    decreases |ts| - i
  {
    if i == |ts| then None
    else if ts[i].kind == CloseParen then
      if depth == 0 then Some(i) else FindClosingFrom(ts, from, i + 1, depth - 1)
    else if ts[i].kind == OpenParen then FindClosingFrom(ts, from, i + 1, depth + 1)
    else FindClosingFrom(ts, from, i + 1, depth)
  }

  /** The least index at or after `from` holding a `)` at parenthesis depth
      zero. The closing and opening kinds it is given are not consulted:
      the scan always counts parentheses. */
  function FindClosingToken(ts: seq<Token>, closing: TokenKind, from: nat, opening: TokenKind): (r: Option<nat>)
    ensures r.Some? ==> ClosesAt(ts, from, r.value) && forall k :: from <= k < r.value ==> !ClosesAt(ts, from, k)
    ensures r.None? ==> forall k :: from <= k < |ts| ==> !ClosesAt(ts, from, k)
  {
    if from >= |ts| then None else FindClosingFrom(ts, from, from, 0)
  }

  // ---------------------------------------------------------------------
  // Leaves
  // ---------------------------------------------------------------------

  /** A string-literal node: the template text between the token's columns,
      optionally without its quotes. */
  function StringLiteralNode(template: string, t: Token, stripQuotes: bool): (n: Node)
    ensures IsLeaf(n, NodeKind.StringLiteral) && n.columnFrom == t.columnFrom && n.columnTo == t.columnTo
  {
    var value := if stripQuotes then Slice(template, t.columnFrom + 1, t.columnTo - 1)
                 else Slice(template, t.columnFrom, t.columnTo);
    Node(value, NodeKind.StringLiteral, t.columnFrom, t.columnTo, [])
  }

  /** A numeric-literal node keeps the token's lexeme. */
  function NumericLiteralNode(t: Token): (n: Node)
    ensures IsLeaf(n, NodeKind.NumericLiteral) && n.value == t.lexeme
  {
    Node(t.lexeme, NodeKind.NumericLiteral, t.columnFrom, t.columnTo, [])
  }

  function EndOfFileNode(t: Token): (n: Node)
    ensures IsLeaf(n, EndOfFileToken) && n.value == ""
  {
    Node("", EndOfFileToken, t.columnFrom, t.columnTo, [])
  }

  // ---------------------------------------------------------------------
  // Calls
  // ---------------------------------------------------------------------

  /** Tokens `i+1..i+3` are `( StringLiteral )`. */
  predicate GetShape(ts: seq<Token>, i: nat) {
    && i + 3 < |ts|
    && ts[i + 1].kind == OpenParen
    && ts[i + 2].kind == TokenKind.StringLiteral
    && ts[i + 3].kind == CloseParen
  }

  /** Tokens `i+1..i+6` are `( GET ( StringLiteral ) )`. */
  predicate LengthShape(ts: seq<Token>, i: nat) {
    && i + 6 < |ts|
    && ts[i + 1].kind == OpenParen
    && ts[i + 2].kind == GetKeyword
    && GetShape(ts, i + 2)
    && ts[i + 6].kind == CloseParen
  }

  /** `GET ( "name" )` at index `i`; yields the call node and the index
      after it. */
  function ParseGet(template: string, ts: seq<Token>, i: nat): (r: Result<(Node, nat), ParseError>)
    requires EndsWithEof(ts) && i + 1 < |ts|
    ensures r.Success? <==> GetShape(ts, i)
    ensures r.Success? ==>
              && r.value.1 == i + 4
              && IsGetCall(r.value.0)
              && r.value.0.children == [StringLiteralNode(template, ts[i + 2], false)]
              && r.value.0.columnFrom == ts[i].columnFrom
              && r.value.0.columnTo == ts[i + 3].columnTo
    ensures ts[i + 1].kind != OpenParen ==> r == Failure(ParseError(InvalidGetParentheses, ts[i + 1].columnFrom))
    ensures ts[i + 1].kind == OpenParen && i + 3 < |ts| && ts[i + 3].kind != CloseParen ==>
              r == Failure(ParseError(InvalidGetParentheses, ts[i + 1].columnFrom))
    ensures ts[i + 1].kind == OpenParen && (i + 3 >= |ts| || ts[i + 3].kind == CloseParen)
            && ts[i + 2].kind != TokenKind.StringLiteral ==>
              r == Failure(ParseError(GetArgumentNotString, ts[i + 2].columnFrom))
    ensures r.Failure? ==> r.error.kind == InvalidGetParentheses || r.error.kind == GetArgumentNotString
  {
    var token := ts[i];
    var open := ts[i + 1];
    if open.kind != OpenParen || (i + 3 < |ts| && ts[i + 3].kind != CloseParen) then
      Failure(ParseError(InvalidGetParentheses, open.columnFrom))
    else
      var argument := ts[i + 2];
      if argument.kind != TokenKind.StringLiteral then
        Failure(ParseError(GetArgumentNotString, argument.columnFrom))
      else
        var close := ts[i + 3];
        var node := Node(Slice(template, token.columnFrom, close.columnTo), GetCall, token.columnFrom, close.columnTo,
                         [StringLiteralNode(template, argument, false)]);
        Success((node, i + 4))
  }

  /** `LENGTH ( GET ( "name" ) )` at index `i`. */
  function ParseLength(template: string, ts: seq<Token>, i: nat): (r: Result<(Node, nat), ParseError>)
    requires EndsWithEof(ts) && i + 2 < |ts|
    ensures r.Success? <==> LengthShape(ts, i)
    ensures r.Success? ==>
              && r.value.1 == i + 7
              && IsLengthCall(r.value.0)
              && r.value.0.children == [ParseGet(template, ts, i + 2).value.0]
              && r.value.0.columnFrom == ts[i].columnFrom
              && r.value.0.columnTo == ts[i + 6].columnTo
    ensures ts[i + 2].kind != GetKeyword ==> r == Failure(ParseError(LengthArgumentNotGet, ts[i + 2].columnFrom))
    ensures ts[i + 2].kind == GetKeyword && ParseGet(template, ts, i + 2).Failure? ==> r == ParseGet(template, ts, i + 2)
    ensures ts[i + 2].kind == GetKeyword && ParseGet(template, ts, i + 2).Success? && i + 6 < |ts|
            && (ts[i + 1].kind != OpenParen || ts[i + 6].kind != CloseParen) ==>
              r == Failure(ParseError(WrongLengthParentheses, ts[i + 1].columnFrom))
  {
    var argument := ts[i + 2];
    if argument.kind != GetKeyword then
      Failure(ParseError(LengthArgumentNotGet, argument.columnFrom))
    else
      var get :- ParseGet(template, ts, i + 2);
      WrapLength(template, ts, i, get)
  }

  /** The LENGTH call at index `i` around its parsed GET call, once the
      parentheses around that call are checked. */
  function WrapLength(template: string, ts: seq<Token>, i: nat, get: (Node, nat)): (r: Result<(Node, nat), ParseError>)
    requires EndsWithEof(ts) && get.1 == i + 6 && i + 6 < |ts|
    ensures r.Success? <==> ts[i + 1].kind == OpenParen && ts[i + 6].kind == CloseParen
    ensures r.Success? ==>
              && r.value == (Node(Slice(template, ts[i].columnFrom, ts[i + 6].columnTo), LengthCall,
                                  ts[i].columnFrom, ts[i + 6].columnTo, [get.0]), i + 7)
    ensures r.Failure? ==> r == Failure(ParseError(WrongLengthParentheses, ts[i + 1].columnFrom))
  {
    var token := ts[i];
    var open := ts[i + 1];
    var close := ts[get.1];
    if open.kind != OpenParen || close.kind != CloseParen then
      Failure(ParseError(WrongLengthParentheses, open.columnFrom))
    else
      var node := Node(Slice(template, token.columnFrom, close.columnTo), LengthCall, token.columnFrom, close.columnTo,
                       [get.0]);
      Success((node, get.1 + 1))
  }

  /** `IF` at index `i`: only its parentheses are checked -- a `(` right
      after it and a matching `)` later -- and no node is built; the cursor
      moves past the keyword alone. */
  function ParseIf(ts: seq<Token>, i: nat): (r: Result<nat, ParseError>)
    requires i + 1 < |ts|
    ensures r.Success? <==> ts[i + 1].kind == OpenParen && HasClosing(ts, i + 2)
    ensures r.Success? ==> r.value == i + 1
    ensures r.Failure? ==> r.error == ParseError(InvalidIfParentheses, ts[i + 1].columnFrom)
  {
    var open := ts[i + 1];
    var closing := FindClosingToken(ts, CloseParen, i + 2, OpenParen);
    if open.kind != OpenParen || closing.None? then
      Failure(ParseError(InvalidIfParentheses, open.columnFrom))
    else
      Success(i + 1)
  }

  // ---------------------------------------------------------------------
  // Formulas
  // ---------------------------------------------------------------------

  /** The formula body loop: values from index `i` up to the formula's
      close brace at index `end`, appended to `acc`. */
  function ParseFormulaItems(template: string, ts: seq<Token>, i: nat, end: nat, acc: seq<Node>): (r: Result<seq<Node>, ParseError>)
    requires EndsWithEof(ts) && end < |ts| && ts[end].kind == CloseBrace && i <= |ts|
    requires forall n :: n in acc ==> IsFormulaValue(n)
    ensures r.Success? ==> forall n :: n in r.value ==> IsFormulaValue(n)
    decreases |ts| - i
  {
    if i >= end then Success(acc)
    else
      var token := ts[i];
      match token.kind
      case StringLiteral =>
        ParseFormulaItems(template, ts, i + 1, end, acc + [StringLiteralNode(template, token, false)])
      case NumericLiteral =>
        ParseFormulaItems(template, ts, i + 1, end, acc + [NumericLiteralNode(token)])
      case GetKeyword =>
        var get :- ParseGet(template, ts, i);
        ParseFormulaItems(template, ts, get.1, end, acc + [get.0])
      case LengthKeyword =>
        var length :- ParseLength(template, ts, i);
        ParseFormulaItems(template, ts, length.1, end, acc + [length.0])
      case IfKeyword =>
        var next :- ParseIf(ts, i);
        ParseFormulaItems(template, ts, next, end, acc)
      case _ =>
        Failure(ParseError(UnexpectedFormulaBodyToken, token.columnFrom))
  }

  /** A formula body holds at most one value: an empty body gives no
      children, and a second value is reported at its own column. */
  function ParseFormulaBody(template: string, ts: seq<Token>, i: nat, end: nat): (r: Result<seq<Node>, ParseError>)
    requires EndsWithEof(ts) && end < |ts| && ts[end].kind == CloseBrace && i <= |ts|
    ensures r.Success? ==> |r.value| <= 1 && forall n :: n in r.value ==> IsFormulaValue(n)
    ensures i >= end ==> r == Success([])
    ensures var items := ParseFormulaItems(template, ts, i, end, []);
      items.Success? && |items.value| >= 2 ==> r == Failure(ParseError(TooManyFormulaArguments, items.value[1].columnFrom))
    ensures var items := ParseFormulaItems(template, ts, i, end, []);
      items.Failure? || |items.value| <= 1 ==> r == items
  {
    var nodes :- ParseFormulaItems(template, ts, i, end, []);
    if |nodes| > 1 then Failure(ParseError(TooManyFormulaArguments, nodes[1].columnFrom))
    else Success(nodes)
  }

  /** `${ body }` starting at the `${` token at index `i`. The formula ends at
      the first close brace at or after `i`; parsing resumes just after it. */
  function ParseFormula(template: string, ts: seq<Token>, i: nat): (r: Result<(Node, nat), ParseError>)
    requires EndsWithEof(ts) && i < |ts|
    ensures (forall k :: i <= k < |ts| ==> ts[k].kind != CloseBrace) ==>
              r == Failure(ParseError(MissingFormulaCloseBrace, ts[i].columnFrom))
    ensures r.Success? ==>
              var next := r.value.1;
              && i < next <= |ts| - 1
              && ts[next - 1].kind == CloseBrace
              && (forall k :: i <= k < next - 1 ==> ts[k].kind != CloseBrace)
              && IsFormula(r.value.0)
              && r.value.0.columnFrom == ts[i].columnFrom
              && r.value.0.columnTo == ts[next - 1].columnTo
    ensures var found := FindTokenIndexFrom(ts, CloseBrace, i);
      found.Some? ==> r == FormulaNode(template, ts, i, found.value)
  {
    var found := FindTokenIndexFrom(ts, CloseBrace, i);
    if found.None? then
      Failure(ParseError(MissingFormulaCloseBrace, ts[i].columnFrom))
    else
      var end := found.value;
      assert i <= end < |ts| && ts[end].kind == CloseBrace;
      FormulaNode(template, ts, i, end)
  }

  /** The formula opened at `i` and closed by the brace at `end`: its
      children are the body between them, whose failure is passed on, and
      parsing resumes just after the brace. */
  function FormulaNode(template: string, ts: seq<Token>, i: nat, end: nat): (r: Result<(Node, nat), ParseError>)
    requires EndsWithEof(ts) && i <= end < |ts| && ts[end].kind == CloseBrace
    ensures r.Success? <==> ParseFormulaBody(template, ts, i + 1, end).Success?
    ensures r.Failure? ==> r == Failure(ParseFormulaBody(template, ts, i + 1, end).error)
    ensures r.Success? ==>
              && r.value.1 == end + 1
              && IsFormula(r.value.0)
              && r.value.0.children == ParseFormulaBody(template, ts, i + 1, end).value
              && r.value.0.columnFrom == ts[i].columnFrom
              && r.value.0.columnTo == ts[end].columnTo
  {
    var token := ts[i];
    var close := ts[end];
    var children :- ParseFormulaBody(template, ts, i + 1, end);
    var node := Node(Slice(template, token.columnFrom, close.columnTo), Formula, token.columnFrom, close.columnTo, children);
    Success((node, end + 1))
  }

  // ---------------------------------------------------------------------
  // Template and source file
  // ---------------------------------------------------------------------

  /** The template loop: text runs and formulas from index `i` up to the
      end-of-file token, appended to `acc`; also yields the index the loop
      stops at. */
  function ParseTemplateItems(template: string, ts: seq<Token>, i: nat, acc: seq<Node>): (r: Result<(seq<Node>, nat), ParseError>)
    requires EndsWithEof(ts) && i < |ts|
    requires forall n :: n in acc ==> IsLeaf(n, NodeKind.StringLiteral) || IsFormula(n)
    ensures r.Success? ==> forall n :: n in r.value.0 ==> IsLeaf(n, NodeKind.StringLiteral) || IsFormula(n)
    ensures r.Success? ==> r.value.1 == |ts| - 1
    ensures i < |ts| - 1 && !(ts[i].kind == TokenKind.StringLiteral || ts[i].kind == DollarBrace) ==>
              r == Failure(ParseError(UnexpectedSourceToken, ts[i].columnFrom))
    decreases |ts| - i
  {
    if i >= |ts| - 1 then Success((acc, i))
    else
      var token := ts[i];
      match token.kind
      case StringLiteral =>
        ParseTemplateItems(template, ts, i + 1, acc + [StringLiteralNode(template, token, false)])
      case DollarBrace =>
        var formula :- ParseFormula(template, ts, i);
        ParseTemplateItems(template, ts, formula.1, acc + [formula.0])
      case _ =>
        Failure(ParseError(UnexpectedSourceToken, token.columnFrom))
  }

  /** The template body node and the index its loop stops at, which is
      always the end-of-file token's. */
  function ParseTemplateString(template: string, ts: seq<Token>): (r: Result<(Node, nat), ParseError>)
    requires EndsWithEof(ts) && |ts| >= 2
    ensures r.Success? ==>
              && IsTemplateString(r.value.0)
              && r.value.1 == |ts| - 1
              && r.value.0.columnFrom == 0
              && r.value.0.columnTo == ts[|ts| - 2].columnTo
  {
    var items :- ParseTemplateItems(template, ts, 0, []);
    var last := ts[|ts| - 2];
    var node := Node(Slice(template, ts[0].columnFrom, last.columnTo), TemplateString, 0, last.columnTo, items.0);
    Success((node, items.1))
  }

  /** The root rule: checks the end-of-file token first, then parses the
      template body (when there is one) and the end of file. The template
      loop always stops on the end-of-file token, so the cursor always ends
      one past it and the rule's own check for unconsumed tokens has no
      branch here. */
  function ParseSourceFile(template: string, ts: seq<Token>): (r: Result<(Node, nat), ParseError>)
    requires |ts| > 0
    ensures ts[|ts| - 1].kind != EndOfFile ==> r == Failure(ParseError(MissingEndOfFile, 0))
    ensures |ts| == 1 && ts[0].kind == EndOfFile ==> r.Success? && r.value.0.children == [EndOfFileNode(ts[0])]
    ensures r.Success? ==>
              && IsSourceFile(r.value.0)
              && r.value.1 == |ts|
              && (|ts| >= 2 <==> |r.value.0.children| == 2)
              && r.value.0.children[|r.value.0.children| - 1] == EndOfFileNode(ts[|ts| - 1])
    ensures |ts| >= 2 && ts[|ts| - 1].kind == EndOfFile ==>
              && (r.Success? <==> ParseTemplateString(template, ts).Success?)
              && (r.Success? ==>
                    |r.value.0.children| == 2 && r.value.0.children[0] == ParseTemplateString(template, ts).value.0)
  {
    var eof := ts[|ts| - 1];
    if eof.kind != EndOfFile then
      Failure(ParseError(MissingEndOfFile, 0))
    else
      var value := Slice(template, ts[0].columnFrom, eof.columnTo);
      if |ts| <= 1 then
        Success((Node(value, SourceFile, 0, eof.columnTo, [EndOfFileNode(ts[0])]), 1))
      else
        ParseBodyAndEnd(template, ts, value)
  }

  /** The root of a non-empty template: the template body, then the
      end-of-file node at the index the body stops at. */
  function ParseBodyAndEnd(template: string, ts: seq<Token>, value: string): (r: Result<(Node, nat), ParseError>)
    requires EndsWithEof(ts) && |ts| >= 2
    ensures r.Success? ==>
              && IsSourceFile(r.value.0)
              && r.value.1 == |ts|
              && |r.value.0.children| == 2
              && r.value.0.children[1] == EndOfFileNode(ts[|ts| - 1])
    ensures r.Success? <==> ParseTemplateString(template, ts).Success?
    ensures r.Success? ==>
              |r.value.0.children| == 2 && r.value.0.children[0] == ParseTemplateString(template, ts).value.0
  {
    var body :- ParseTemplateString(template, ts);
    assert body.1 == |ts| - 1;
    var eofNode := EndOfFileNode(ts[body.1]);
    Success((Node(value, SourceFile, 0, ts[|ts| - 1].columnTo, [body.0, eofNode]), body.1 + 1))
  }

  /** The parser entry point: drops whitespace, parses the source file and
      rejects unconsumed tokens. */
  function Parse(template: string, tokens: seq<Token>): (r: Result<Node, ParseError>)
    requires |WithoutWhitespace(tokens)| > 0
    ensures r.Success? ==> IsSourceFile(r.value)
    ensures r.Success? <==> ParseSourceFile(template, WithoutWhitespace(tokens)).Success?
    ensures r.Success? ==> r == Success(ParseSourceFile(template, WithoutWhitespace(tokens)).value.0)
    ensures var ts := WithoutWhitespace(tokens);
      ts[|ts| - 1].kind != EndOfFile ==> r == Failure(ParseError(MissingEndOfFile, 0))
  {
    var ts := WithoutWhitespace(tokens);
    var parsed :- ParseSourceFile(template, ts);
    if parsed.1 < |ts| - 1 then Failure(ParseError(UnparsedTokens, 0))
    else Success(parsed.0)
  }

  // ---------------------------------------------------------------------
  // Properties of the parser
  // ---------------------------------------------------------------------

  /** Whitespace tokens never affect the parse: parsing the filtered list
      gives the same outcome as parsing the list itself. A corollary of
      `WithoutWhitespaceIdempotent`, since the parser filters first. */
  lemma ParseIgnoresWhitespace(template: string, tokens: seq<Token>)
    requires |WithoutWhitespace(tokens)| > 0
    ensures && WithoutWhitespace(WithoutWhitespace(tokens)) == WithoutWhitespace(tokens)
            && Parse(template, WithoutWhitespace(tokens)) == Parse(template, tokens)
  {
    WithoutWhitespaceIdempotent(tokens);
  }

  /** The template body's nodes from index `i` to the end of file, defined
      right to left and without an accumulator: a text token gives its
      string node, a `${` gives the formula it opens, and the rest are the
      nodes from where that item ends. Any other token is rejected at its
      column. */
  function TemplateNodes(template: string, ts: seq<Token>, i: nat): Result<seq<Node>, ParseError>
    requires EndsWithEof(ts) && i < |ts|
    decreases |ts| - i
  {
    if i >= |ts| - 1 then Success([])
    else if ts[i].kind == TokenKind.StringLiteral then
      var rest :- TemplateNodes(template, ts, i + 1);
      Success([StringLiteralNode(template, ts[i], false)] + rest)
    else if ts[i].kind == DollarBrace then
      var formula :- ParseFormula(template, ts, i);
      var rest :- TemplateNodes(template, ts, formula.1);
      Success([formula.0] + rest)
    else
      Failure(ParseError(UnexpectedSourceToken, ts[i].columnFrom))
  }

  /** The template loop from any accumulator is that accumulator followed by
      the body's nodes, in token order; it fails exactly when they fail,
      with the same error. */
  lemma {:induction false} TemplateItemsAreTemplateNodes(template: string, ts: seq<Token>, i: nat, acc: seq<Node>)
    requires EndsWithEof(ts) && i < |ts|
    requires forall n :: n in acc ==> IsLeaf(n, NodeKind.StringLiteral) || IsFormula(n)
    ensures ParseTemplateItems(template, ts, i, acc).Success? <==> TemplateNodes(template, ts, i).Success?
    ensures TemplateNodes(template, ts, i).Failure? ==>
              ParseTemplateItems(template, ts, i, acc) == Failure(TemplateNodes(template, ts, i).error)
    ensures TemplateNodes(template, ts, i).Success? ==>
              ParseTemplateItems(template, ts, i, acc).value == (acc + TemplateNodes(template, ts, i).value, |ts| - 1)
    decreases |ts| - i
  {
    if i < |ts| - 1 {
      var token := ts[i];
      if token.kind == TokenKind.StringLiteral {
        TemplateItemStep(template, ts, i, acc, StringLiteralNode(template, token, false), i + 1);
      } else if token.kind == DollarBrace && ParseFormula(template, ts, i).Success? {
        var formula := ParseFormula(template, ts, i).value;
        TemplateItemStep(template, ts, i, acc, formula.0, formula.1);
      }
    } else {
      assert acc + [] == acc;
    }
  }

  /** One step of the template loop: the loop and the reference both take
      `node` and continue from `next`. */
  lemma {:induction false} TemplateItemStep(template: string, ts: seq<Token>, i: nat, acc: seq<Node>, node: Node, next: nat)
    requires EndsWithEof(ts) && i < |ts| - 1 && i < next < |ts|
    requires forall n :: n in acc ==> IsLeaf(n, NodeKind.StringLiteral) || IsFormula(n)
    requires IsLeaf(node, NodeKind.StringLiteral) || IsFormula(node)
    requires ParseTemplateItems(template, ts, i, acc) == ParseTemplateItems(template, ts, next, acc + [node])
    requires TemplateNodes(template, ts, i)
             == (var rest :- TemplateNodes(template, ts, next); Success([node] + rest))
    ensures ParseTemplateItems(template, ts, i, acc).Success? <==> TemplateNodes(template, ts, i).Success?
    ensures TemplateNodes(template, ts, i).Failure? ==>
              ParseTemplateItems(template, ts, i, acc) == Failure(TemplateNodes(template, ts, i).error)
    ensures TemplateNodes(template, ts, i).Success? ==>
              ParseTemplateItems(template, ts, i, acc).value == (acc + TemplateNodes(template, ts, i).value, |ts| - 1)
    decreases |ts| - i, 0
  {
    TemplateItemsAreTemplateNodes(template, ts, next, acc + [node]);
    if TemplateNodes(template, ts, next).Success? {
      ConcatAssociates(acc, [node], TemplateNodes(template, ts, next).value);
    }
  }

  /** The template node's children are exactly the body's nodes: one string
      node per top-level text token and one formula per `${`, in order. */
  lemma TemplateStringChildren(template: string, ts: seq<Token>)
    requires EndsWithEof(ts) && |ts| >= 2
    ensures ParseTemplateString(template, ts).Success? <==> TemplateNodes(template, ts, 0).Success?
    ensures ParseTemplateString(template, ts).Success? ==>
              ParseTemplateString(template, ts).value.0.children == TemplateNodes(template, ts, 0).value
  {
    TemplateItemsAreTemplateNodes(template, ts, 0, []);
    var items := ParseTemplateItems(template, ts, 0, []);
    assert ParseTemplateString(template, ts).Success? <==> items.Success?;
    var nodes := TemplateNodes(template, ts, 0);
    if nodes.Success? {
      assert [] + nodes.value == nodes.value;
      assert ParseTemplateString(template, ts).value.0.children == items.value.0;
    }
  }

  /** A template that lexes to a single text run and the end of file has
      that run's string node as its only child. */
  lemma TextOnlyTemplate(template: string, text: Token, eof: Token)
    requires text.kind == TokenKind.StringLiteral && eof.kind == EndOfFile
    ensures ParseTemplateString(template, [text, eof]).Success?
    ensures ParseTemplateString(template, [text, eof]).value.0.children == [StringLiteralNode(template, text, false)]
  {
    var ts := [text, eof];
    TemplateStringChildren(template, ts);
    assert TemplateNodes(template, ts, 1) == Success([]);
    assert [StringLiteralNode(template, text, false)] + [] == [StringLiteralNode(template, text, false)];
    assert TemplateNodes(template, ts, 0) == Success([StringLiteralNode(template, text, false)]);
  }

  /** The formula body's nodes from index `i` up to its close brace at
      `end`, defined right to left and without an accumulator: a string or
      number token gives its leaf, GET and LENGTH give their call node and
      continue after the call, IF gives no node and continues after the
      keyword, and any other token is rejected at its column. */
  function FormulaNodes(template: string, ts: seq<Token>, i: nat, end: nat): Result<seq<Node>, ParseError>
    requires EndsWithEof(ts) && end < |ts| && ts[end].kind == CloseBrace && i <= |ts|
    decreases |ts| - i
  {
    if i >= end then Success([])
    else
      var token := ts[i];
      match token.kind
      case StringLiteral =>
        var rest :- FormulaNodes(template, ts, i + 1, end);
        Success([StringLiteralNode(template, token, false)] + rest)
      case NumericLiteral =>
        var rest :- FormulaNodes(template, ts, i + 1, end);
        Success([NumericLiteralNode(token)] + rest)
      case GetKeyword =>
        var get :- ParseGet(template, ts, i);
        var rest :- FormulaNodes(template, ts, get.1, end);
        Success([get.0] + rest)
      case LengthKeyword =>
        var length :- ParseLength(template, ts, i);
        var rest :- FormulaNodes(template, ts, length.1, end);
        Success([length.0] + rest)
      case IfKeyword =>
        var next :- ParseIf(ts, i);
        FormulaNodes(template, ts, next, end)
      case _ =>
        Failure(ParseError(UnexpectedFormulaBodyToken, token.columnFrom))
  }

  /** The formula body loop from any accumulator is that accumulator
      followed by the body's nodes, in token order; it fails exactly when
      they fail, with the same error. */
  lemma {:induction false} FormulaItemsAreFormulaNodes(template: string, ts: seq<Token>, i: nat, end: nat, acc: seq<Node>)
    requires EndsWithEof(ts) && end < |ts| && ts[end].kind == CloseBrace && i <= |ts|
    requires forall n :: n in acc ==> IsFormulaValue(n)
    ensures ParseFormulaItems(template, ts, i, end, acc).Success? <==> FormulaNodes(template, ts, i, end).Success?
    ensures FormulaNodes(template, ts, i, end).Failure? ==>
              ParseFormulaItems(template, ts, i, end, acc) == Failure(FormulaNodes(template, ts, i, end).error)
    ensures FormulaNodes(template, ts, i, end).Success? ==>
              ParseFormulaItems(template, ts, i, end, acc).value == acc + FormulaNodes(template, ts, i, end).value
    decreases |ts| - i
  {
    if i >= end {
      assert acc + [] == acc;
    } else {
      var token := ts[i];
      match token.kind
      case StringLiteral =>
        FormulaItemStep(template, ts, i, end, acc, StringLiteralNode(template, token, false), i + 1);
      case NumericLiteral =>
        FormulaItemStep(template, ts, i, end, acc, NumericLiteralNode(token), i + 1);
      case GetKeyword =>
        FormulaGetStep(template, ts, i, end, acc);
      case LengthKeyword =>
        FormulaLengthStep(template, ts, i, end, acc);
      case IfKeyword =>
        var next := ParseIf(ts, i);
        if next.Success? {
          FormulaItemsAreFormulaNodes(template, ts, next.value, end, acc);
        }
      case _ =>
    }
  }

  /** The GET step of the formula body loop. */
  lemma {:induction false} FormulaGetStep(template: string, ts: seq<Token>, i: nat, end: nat, acc: seq<Node>)
    requires EndsWithEof(ts) && end < |ts| && ts[end].kind == CloseBrace && i < end
    requires forall n :: n in acc ==> IsFormulaValue(n)
    requires ts[i].kind == GetKeyword
    ensures ParseFormulaItems(template, ts, i, end, acc).Success? <==> FormulaNodes(template, ts, i, end).Success?
    ensures FormulaNodes(template, ts, i, end).Failure? ==>
              ParseFormulaItems(template, ts, i, end, acc) == Failure(FormulaNodes(template, ts, i, end).error)
    ensures FormulaNodes(template, ts, i, end).Success? ==>
              ParseFormulaItems(template, ts, i, end, acc).value == acc + FormulaNodes(template, ts, i, end).value
    decreases |ts| - i, 1
  {
    var get := ParseGet(template, ts, i);
    if get.Success? {
      FormulaItemStep(template, ts, i, end, acc, get.value.0, get.value.1);
    }
  }

  /** The LENGTH step of the formula body loop. */
  lemma {:induction false} FormulaLengthStep(template: string, ts: seq<Token>, i: nat, end: nat, acc: seq<Node>)
    requires EndsWithEof(ts) && end < |ts| && ts[end].kind == CloseBrace && i < end
    requires forall n :: n in acc ==> IsFormulaValue(n)
    requires ts[i].kind == LengthKeyword
    ensures ParseFormulaItems(template, ts, i, end, acc).Success? <==> FormulaNodes(template, ts, i, end).Success?
    ensures FormulaNodes(template, ts, i, end).Failure? ==>
              ParseFormulaItems(template, ts, i, end, acc) == Failure(FormulaNodes(template, ts, i, end).error)
    ensures FormulaNodes(template, ts, i, end).Success? ==>
              ParseFormulaItems(template, ts, i, end, acc).value == acc + FormulaNodes(template, ts, i, end).value
    decreases |ts| - i, 1
  {
    var length := ParseLength(template, ts, i);
    if length.Success? {
      FormulaItemStep(template, ts, i, end, acc, length.value.0, length.value.1);
    }
  }

  /** One value step of the formula body loop: the loop and the reference
      both take `node` and continue from `next`. */
  lemma {:induction false} FormulaItemStep(template: string, ts: seq<Token>, i: nat, end: nat, acc: seq<Node>, node: Node, next: nat)
    requires EndsWithEof(ts) && end < |ts| && ts[end].kind == CloseBrace && i < end && i < next <= |ts|
    requires forall n :: n in acc ==> IsFormulaValue(n)
    requires IsFormulaValue(node)
    requires ParseFormulaItems(template, ts, i, end, acc) == ParseFormulaItems(template, ts, next, end, acc + [node])
    requires FormulaNodes(template, ts, i, end)
             == (var rest :- FormulaNodes(template, ts, next, end); Success([node] + rest))
    ensures ParseFormulaItems(template, ts, i, end, acc).Success? <==> FormulaNodes(template, ts, i, end).Success?
    ensures FormulaNodes(template, ts, i, end).Failure? ==>
              ParseFormulaItems(template, ts, i, end, acc) == Failure(FormulaNodes(template, ts, i, end).error)
    ensures FormulaNodes(template, ts, i, end).Success? ==>
              ParseFormulaItems(template, ts, i, end, acc).value == acc + FormulaNodes(template, ts, i, end).value
    decreases |ts| - i, 0
  {
    FormulaItemsAreFormulaNodes(template, ts, next, end, acc + [node]);
    if FormulaNodes(template, ts, next, end).Success? {
      ConcatAssociates(acc, [node], FormulaNodes(template, ts, next, end).value);
    }
  }

  /** The formula body against the reference: it succeeds exactly when the
      body's nodes parse and number at most one, and is then those nodes; a
      second node is reported at its own column. */
  lemma FormulaBodyIsFormulaNodes(template: string, ts: seq<Token>, i: nat, end: nat)
    requires EndsWithEof(ts) && end < |ts| && ts[end].kind == CloseBrace && i <= |ts|
    ensures var nodes := FormulaNodes(template, ts, i, end);
      && (ParseFormulaBody(template, ts, i, end).Success? <==> nodes.Success? && |nodes.value| <= 1)
      && (nodes.Failure? ==> ParseFormulaBody(template, ts, i, end) == Failure(nodes.error))
      && (nodes.Success? && |nodes.value| <= 1 ==> ParseFormulaBody(template, ts, i, end) == nodes)
      && (nodes.Success? && |nodes.value| >= 2 ==>
            ParseFormulaBody(template, ts, i, end) == Failure(ParseError(TooManyFormulaArguments, nodes.value[1].columnFrom)))
  {
    FormulaItemsAreFormulaNodes(template, ts, i, end, []);
    var nodes := FormulaNodes(template, ts, i, end);
    if nodes.Success? {
      assert [] + nodes.value == nodes.value;
    }
  }

  /** The leaf a string or number token becomes inside a formula. */
  function LiteralLeaf(template: string, t: Token): Node {
    if t.kind == TokenKind.StringLiteral then StringLiteralNode(template, t, false) else NumericLiteralNode(t)
  }

  /** A literal token inside a formula body contributes its leaf, and the
      body continues with the next token. */
  lemma LiteralNodesStep(template: string, ts: seq<Token>, j: nat, end: nat)
    requires EndsWithEof(ts) && end < |ts| && ts[end].kind == CloseBrace && j < end
    requires ts[j].kind == TokenKind.StringLiteral || ts[j].kind == TokenKind.NumericLiteral
    ensures FormulaNodes(template, ts, j, end)
            == (var rest :- FormulaNodes(template, ts, j + 1, end); Success([LiteralLeaf(template, ts[j])] + rest))
  {
  }

  /** A formula holding one string or number literal parses to a formula
      whose only child is that literal's leaf. */
  lemma LiteralFormulaParses(template: string, ts: seq<Token>, i: nat)
    requires EndsWithEof(ts) && i + 2 < |ts|
    requires ts[i].kind == DollarBrace && ts[i + 2].kind == CloseBrace
    requires ts[i + 1].kind == TokenKind.StringLiteral || ts[i + 1].kind == TokenKind.NumericLiteral
    ensures var r := ParseFormula(template, ts, i);
      && r.Success?
      && r.value.1 == i + 3
      && r.value.0.children == [LiteralLeaf(template, ts[i + 1])]
  {
    var leaf := LiteralLeaf(template, ts[i + 1]);
    assert FindTokenIndexFrom(ts, CloseBrace, i) == Some(i + 2);
    FormulaBodyIsFormulaNodes(template, ts, i + 1, i + 2);
    LiteralNodesStep(template, ts, i + 1, i + 2);
    assert [leaf] + [] == [leaf];
    assert FormulaNodes(template, ts, i + 1, i + 2) == Success([leaf]);
  }

  /** A formula holding two string or number literals fails with too many
      arguments, reported at the second literal's column. */
  lemma TwoLiteralFormulaFails(template: string, ts: seq<Token>, i: nat)
    requires EndsWithEof(ts) && i + 3 < |ts|
    requires ts[i].kind == DollarBrace && ts[i + 3].kind == CloseBrace
    requires ts[i + 1].kind == TokenKind.StringLiteral || ts[i + 1].kind == TokenKind.NumericLiteral
    requires ts[i + 2].kind == TokenKind.StringLiteral || ts[i + 2].kind == TokenKind.NumericLiteral
    ensures ParseFormula(template, ts, i) == Failure(ParseError(TooManyFormulaArguments, ts[i + 2].columnFrom))
  {
    var error := ParseError(TooManyFormulaArguments, ts[i + 2].columnFrom);
    assert FindTokenIndexFrom(ts, CloseBrace, i) == Some(i + 3);
    TwoLiteralNodes(template, ts, i + 1, i + 3);
    FormulaBodyIsFormulaNodes(template, ts, i + 1, i + 3);
    assert ParseFormulaBody(template, ts, i + 1, i + 3) == Failure(error);
    assert FormulaNode(template, ts, i, i + 3) == Failure(error);
  }

  /** Two literal tokens right before the close brace give their two
      leaves, the second starting at its token's column. */
  lemma TwoLiteralNodes(template: string, ts: seq<Token>, j: nat, end: nat)
    requires EndsWithEof(ts) && end < |ts| && ts[end].kind == CloseBrace && j + 2 == end
    requires ts[j].kind == TokenKind.StringLiteral || ts[j].kind == TokenKind.NumericLiteral
    requires ts[j + 1].kind == TokenKind.StringLiteral || ts[j + 1].kind == TokenKind.NumericLiteral
    ensures FormulaNodes(template, ts, j, end).Success?
    ensures FormulaNodes(template, ts, j, end).value == [LiteralLeaf(template, ts[j]), LiteralLeaf(template, ts[j + 1])]
    ensures FormulaNodes(template, ts, j, end).value[1].columnFrom == ts[j + 1].columnFrom
  {
    var first := LiteralLeaf(template, ts[j]);
    var second := LiteralLeaf(template, ts[j + 1]);
    LiteralNodesStep(template, ts, j + 1, end);
    assert [second] + [] == [second];
    LiteralNodesStep(template, ts, j, end);
    assert [first] + [second] == [first, second];
  }

  /** An `IF` inside a formula always ends the parse with an error reported
      at the token after the keyword: either its parentheses are rejected,
      or the cursor is left on the `(` and that token is rejected as a
      formula value. */
  lemma IfInFormulaFails(template: string, ts: seq<Token>, i: nat, end: nat, acc: seq<Node>)
    requires EndsWithEof(ts) && end < |ts| && ts[end].kind == CloseBrace && i < end
    requires forall n :: n in acc ==> IsFormulaValue(n)
    requires ts[i].kind == TokenKind.IfKeyword
    ensures var r := ParseFormulaItems(template, ts, i, end, acc);
      && r.Failure?
      && r.error.column == ts[i + 1].columnFrom
      && (r.error.kind == InvalidIfParentheses || r.error.kind == UnexpectedFormulaBodyToken)
  {
    var r := ParseIf(ts, i);
    if r.Success? {
      assert ts[i + 1].kind == OpenParen;
      assert ParseFormulaItems(template, ts, i + 1, end, acc)
          == Failure(ParseError(UnexpectedFormulaBodyToken, ts[i + 1].columnFrom));
    }
  }

  /** `${ GET ( "name" ) }` parses to a formula whose only child is the
      call, and the parse resumes after the close brace. */
  lemma GetFormulaParses(template: string, ts: seq<Token>, i: nat)
    requires EndsWithEof(ts) && i + 5 < |ts|
    requires ts[i].kind == DollarBrace && ts[i + 1].kind == GetKeyword && ts[i + 2].kind == OpenParen
    requires ts[i + 3].kind == TokenKind.StringLiteral && ts[i + 4].kind == CloseParen && ts[i + 5].kind == CloseBrace
    ensures var r := ParseFormula(template, ts, i);
      && r.Success?
      && r.value.1 == i + 6
      && r.value.0.children == [ParseGet(template, ts, i + 1).value.0]
  {
    assert FindTokenIndexFrom(ts, CloseBrace, i) == Some(i + 5);
    var get := ParseGet(template, ts, i + 1);
    assert get.Success? && get.value.1 == i + 5;
    assert [] + [get.value.0] == [get.value.0];
    assert ParseFormulaItems(template, ts, i + 1, i + 5, []) == ParseFormulaItems(template, ts, i + 5, i + 5, [get.value.0]);
  }

  /** A formula whose body is empty parses to a formula with no children. */
  lemma EmptyFormulaParses(template: string, ts: seq<Token>, i: nat)
    requires EndsWithEof(ts) && i + 1 < |ts|
    requires ts[i].kind == DollarBrace && ts[i + 1].kind == CloseBrace
    ensures var r := ParseFormula(template, ts, i);
      r.Success? && r.value.1 == i + 2 && r.value.0.children == []
  {
    assert FindTokenIndexFrom(ts, CloseBrace, i) == Some(i + 1);
  }
}

=== FILE: Pipeline.dfy ===
/** How the lexer's output meets the parser's expectations. */
module Pipeline {
  import opened JsText
  import opened Tokens
  import opened Lexer
  import opened Parser
  import opened ParseTree

  /** Dropping whitespace keeps a final token that is not whitespace last. */
  lemma KeepsLastToken(ts: seq<Token>)
    requires |ts| > 0 && ts[|ts| - 1].kind != Whitespace
    ensures var filtered := WithoutWhitespace(ts);
      |filtered| > 0 && filtered[|filtered| - 1] == ts[|ts| - 1]
  {
    var n := |ts|;
    assert ts == ts[..n - 1] + [ts[n - 1]];
    WithoutWhitespaceAppend(ts[..n - 1], [ts[n - 1]]);
    assert WithoutWhitespace([ts[n - 1]]) == [ts[n - 1]] by {
      assert [ts[n - 1]][1..] == [];
    }
  }

  /** The tokens of a delimited template, once filtered, are never empty and
      end with the end-of-file token: the parser's end-of-file check passes
      and its one precondition holds. */
  lemma LexedTokensEndWithEof(template: string)
    requires Backticked(template) && Tokenize(template).Success?
    ensures |WithoutWhitespace(Tokenize(template).value)| > 0
    ensures EndsWithEof(WithoutWhitespace(Tokenize(template).value))
  {
    TokenizeTilesTemplate(template);
    KeepsLastToken(Tokenize(template).value);
  }

  /** A string-literal node built from a lexed token holds that token's
      lexeme, and with its quotes stripped the lexeme without its ends (empty
      when the lexeme is shorter than two characters). */
  lemma StringNodeKeepsLexeme(template: string, t: Token)
    requires Backticked(template)
    ensures Tokenize(template).Success? && t in Tokenize(template).value ==>
              && StringLiteralNode(template, t, false).value == t.lexeme
              && StringLiteralNode(template, t, true).value == DropEnds(t.lexeme)
  {
    if Tokenize(template).Success? && t in Tokenize(template).value {
      TokenizeTilesTemplate(template);
      ColumnsSelectLexeme(template, t);
    }
  }

  /** The slices a string-literal node takes of the template, for a token
      whose columns frame its lexeme. */
  lemma ColumnsSelectLexeme(template: string, t: Token)
    requires 1 <= t.columnFrom <= t.columnTo <= |template|
    requires t.lexeme == template[t.columnFrom..t.columnTo]
    ensures StringLiteralNode(template, t, false).value == t.lexeme
    ensures StringLiteralNode(template, t, true).value == DropEnds(t.lexeme)
  {
    if |t.lexeme| >= 2 {
      assert template[t.columnFrom + 1..t.columnTo - 1] == t.lexeme[1..|t.lexeme| - 1];
    }
  }
}

=== FILE: Results.dfy ===
/** Failure-compatible result types used by every stage of the compiler:
    a thrown `Error` in the original program becomes a `Failure` here. */
module Results {

  /** A value that may be missing (`null` or `undefined` in the original program). */
  datatype Option<+T> = None | Some(value: T)

  /** Either the stage's output or the error that aborted it. */
  datatype Result<+T, +E> = Success(value: T) | Failure(error: E) {

    predicate IsFailure() {
      Failure?
    }

    function PropagateFailure<U>(): Result<U, E>
      requires Failure?
    {
      Failure(error)
    }

    function Extract(): T
      requires Success?
    {
      value
    }
  }
}

=== FILE: Tokens.dfy ===
/** Tokens produced by the lexer and consumed by the parser. */
module Tokens {

  /** The token kinds the lexer can emit. */
  datatype TokenKind =
    | EndOfFile
    | Whitespace
    | StringLiteral
    | NumericLiteral
    | DollarBrace
    | CloseBrace
    | OpenParen
    | CloseParen
    | Comma
    | LessThan
    | LessThanEquals
    | EqualityOperator
    | GreaterThan
    | GreaterThanEquals
    | Identifier
    | IfKeyword
    | GetKeyword
    | LengthKeyword
    | TrueKeyword
    | FalseKeyword

  /** The `KeywordTokenType` union: the kinds a keyword lookup may yield. */
  predicate IsKeyword(k: TokenKind) {
    k.IfKeyword? || k.GetKeyword? || k.LengthKeyword? || k.TrueKeyword? || k.FalseKeyword?
  }

  /** A run of letters: an identifier or one of the keywords. */
  predicate IsWord(k: TokenKind) {
    k.Identifier? || IsKeyword(k)
  }

  /** A token: its text, its kind and the half-open column range it occupies
      in the ORIGINAL template, leading backtick included. */
  datatype Token = Token(lexeme: string, kind: TokenKind, columnFrom: int, columnTo: int)
}

=== FILE: Transpiler.dfy ===
/** Generation of the template function's body text from a syntax tree,
    together with the ordered names of the variables it reads. The
    transpiler works on its own node type: its node kinds are the ones its
    dispatch recognises, which is a different set from the parser's. */
module Transpiler {
  import opened Results
  import opened JsText

  /** The node kinds the transpiler's dispatch knows, plus those it rejects. */
  datatype TKind =
    | SourceFile
    | TemplateString
    | TemplateLiteral
    | StringLiteral
    | NumericLiteral
    | Formula
    | GetCall
    | LengthCall
    | IfKeyword
    | TrueKeyword
    | FalseKeyword
    | BinaryExpression
    | EndOfFileToken

  /** A node as the transpiler reads it: its text, kind and children (the
      column range is never consulted). */
  datatype TNode = TNode(value: string, kind: TKind, children: seq<TNode>)

  /** Why generation stops: a node kind outside the dispatch, or a missing
      child where the code reads one (a runtime type error in the source). */
  datatype TranspileError = InvalidNodeType | MissingOperand

  /** Generated code and the variable names recorded while generating it,
      in the order they were recorded. */
  datatype Fragment = Fragment(code: string, names: seq<string>)

  /** The generated function: the empty-string function, or a function of
      one parameter with the given body text. */
  datatype TemplateFunction =
    | EmptyFunction
    | GeneratedFunction(parameter: string, body: string)

  /** The transpiler's result: the function and the variable names. */
  datatype Transpiled = Transpiled(func: TemplateFunction, variableNames: seq<string>)

  const SubFunctionsArgName: string := "subFunctions"
  const GetName: string := "get"
  const LengthName: string := "length"

  /** The sub-function call `subFunctions.<name>(<argument>)`. */
  function SubFunctionCall(name: string, argument: string): string {
    SubFunctionsArgName + "." + name + "(" + argument + ")"
  }

  /** The child at `k`, or a missing-operand failure where the source would
      read `undefined`. */
  function Child(n: TNode, k: nat): (r: Result<TNode, TranspileError>)
    ensures r.Success? <==> k < |n.children|
    ensures r.Success? ==> r.value == n.children[k] && r.value < n
  {
    if k < |n.children| then Success(n.children[k]) else Failure(MissingOperand)
  }

  // ---------------------------------------------------------------------
  // Node resolution
  // ---------------------------------------------------------------------

  /** The code for one node, dispatching on its kind. Children are read
      and resolved left to right, so the first problem met is the one
      reported. */
  function Resolve(n: TNode): (r: Result<Fragment, TranspileError>)
    ensures (n.kind.SourceFile? || n.kind.TemplateString? || n.kind.BinaryExpression? || n.kind.EndOfFileToken?) ==> r == Failure(InvalidNodeType)
    decreases n, 1
  {
    match n.kind
    case TemplateLiteral => Success(Fragment([DoubleQuote] + n.value + [DoubleQuote], []))
    case StringLiteral => Success(Fragment(n.value, []))
    case NumericLiteral => Success(Fragment(n.value, []))
    case Formula =>
      var child :- Child(n, 0);
      Resolve(child)
    case GetCall =>
      var variable :- Child(n, 0);
      Success(Fragment(SubFunctionCall(GetName, variable.value), [DropEnds(variable.value)]))
    case LengthCall =>
      var child :- Child(n, 0);
      var argument :- Resolve(child);
      Success(Fragment(SubFunctionCall(LengthName, argument.code), argument.names))
    case IfKeyword =>
      var condition :- Child(n, 0);
      var c :- ResolveCondition(condition);
      var onTrue :- Child(n, 1);
      var t :- Resolve(onTrue);
      var onFalse :- Child(n, 2);
      var f :- Resolve(onFalse);
      Success(Fragment(c.code + " ? " + t.code + " : " + f.code, c.names + t.names + f.names))
    case TrueKeyword => Success(Fragment("true", []))
    case FalseKeyword => Success(Fragment("false", []))
    case _ => Failure(InvalidNodeType)
  }

  /** The code for an IF condition: a comparison renders as
      `left op right`, the comparator's text verbatim between the operands'
      code and the operands' names recorded left then right; anything else
      renders as a value. */
  function ResolveCondition(n: TNode): (r: Result<Fragment, TranspileError>)
    ensures n.kind != BinaryExpression ==> r == Resolve(n)
    ensures n.kind == BinaryExpression ==>
              (r.Success? <==> |n.children| >= 3 && Resolve(n.children[0]).Success? && Resolve(n.children[2]).Success?)
    ensures n.kind == BinaryExpression && r.Success? && |n.children| >= 3 ==>
              && Resolve(n.children[0]).Success? && Resolve(n.children[2]).Success?
              && r.value == Fragment(Resolve(n.children[0]).value.code + " " + n.children[1].value + " " + Resolve(n.children[2]).value.code,
                                     Resolve(n.children[0]).value.names + Resolve(n.children[2]).value.names)
    decreases n, 2
  {
    if n.kind == BinaryExpression then
      var left :- Child(n, 0);
      var a :- Resolve(left);
      var comparator :- Child(n, 1);
      var right :- Child(n, 2);
      var b :- Resolve(right);
      Success(Fragment(a.code + " " + comparator.value + " " + b.code, a.names + b.names))
    else
      Resolve(n)
  }

  // ---------------------------------------------------------------------
  // Function body
  // ---------------------------------------------------------------------

  /** The interpolation `${<code>}` of one resolved node. */
  function Segment(f: Fragment): string {
    "${" + f.code + "}"
  }

  /** The `reduce` over the template's children: `acc` followed by one
      `${<code>}` segment per node, left to right. */
  function Interpolate(nodes: seq<TNode>, acc: Fragment): Result<Fragment, TranspileError>
    decreases |nodes|
  {
    if |nodes| == 0 then Success(acc)
    else
      var f :- Resolve(nodes[0]);
      Interpolate(nodes[1..], Fragment(acc.code + Segment(f), acc.names + f.names))
  }

  /** The function body for a template node: a single child is returned as
      an expression; any other number of children is returned as a
      backtick-delimited template of segments. */
  function BuildFunctionBody(template: TNode): Result<Fragment, TranspileError> {
    if |template.children| == 1 then
      var f :- Resolve(template.children[0]);
      Success(Fragment("return " + f.code + ";", f.names))
    else
      var segments :- Interpolate(template.children, Fragment("", []));
      Success(Fragment("return `" + segments.code + "`;", segments.names))
  }

  /** The transpiler entry point. A root whose first child is not a template
      node gives the empty-string function and no names; the names are
      otherwise collected afresh for this call. */
  function Transpile(root: TNode): (r: Result<Transpiled, TranspileError>)
    ensures |root.children| == 0 ==> r == Failure(MissingOperand)
    ensures |root.children| > 0 && root.children[0].kind != TemplateString ==> r == Success(Transpiled(EmptyFunction, []))
    ensures r.Success? && r.value.func.GeneratedFunction? ==> r.value.func.parameter == SubFunctionsArgName
  {
    var template :- Child(root, 0);
    if template.kind != TemplateString then
      Success(Transpiled(EmptyFunction, []))
    else
      var body :- BuildFunctionBody(template);
      Success(Transpiled(GeneratedFunction(SubFunctionsArgName, body.code), body.names))
  }

  // ---------------------------------------------------------------------
  // Reference definitions and the properties linking them
  // ---------------------------------------------------------------------

  /** The nodes that generate code: every kind in the dispatch, with the
      children each one reads present and themselves resolvable. */
  predicate Resolvable(n: TNode)
    decreases n, 1
  {
    match n.kind
    case TemplateLiteral | StringLiteral | NumericLiteral | TrueKeyword | FalseKeyword => true
    case GetCall => |n.children| >= 1
    case Formula | LengthCall => |n.children| >= 1 && Resolvable(n.children[0])
    case IfKeyword =>
      && |n.children| >= 3
      && ConditionResolvable(n.children[0])
      && Resolvable(n.children[1])
      && Resolvable(n.children[2])
    case _ => false
  }

  /** An IF condition generates code: a comparison with both operands and
      the comparator present, or any resolvable value. */
  predicate ConditionResolvable(n: TNode)
    decreases n, 2
  {
    if n.kind == BinaryExpression then
      |n.children| >= 3 && Resolvable(n.children[0]) && Resolvable(n.children[2])
    else
      Resolvable(n)
  }

  /** The GET arguments a node reads, unquoted, in left-to-right order of
      the subtree it generates code for, duplicates kept. */
  function VariableNames(n: TNode): seq<string>
    decreases n, 1
  {
    match n.kind
    case GetCall => if |n.children| >= 1 then [DropEnds(n.children[0].value)] else []
    case Formula | LengthCall => if |n.children| >= 1 then VariableNames(n.children[0]) else []
    case IfKeyword =>
      if |n.children| >= 3 then
        ConditionVariableNames(n.children[0]) + VariableNames(n.children[1]) + VariableNames(n.children[2])
      else []
    case _ => []
  }

  function ConditionVariableNames(n: TNode): seq<string>
    decreases n, 2
  {
    if n.kind == BinaryExpression then
      if |n.children| >= 3 then VariableNames(n.children[0]) + VariableNames(n.children[2]) else []
    else
      VariableNames(n)
  }

  /** Resolution succeeds exactly on resolvable nodes, and the names it
      records are the node's GET arguments in order. */
  lemma {:induction false} ResolveMatchesReference(n: TNode)
    ensures Resolve(n).Success? <==> Resolvable(n)
    ensures Resolve(n).Success? ==> Resolve(n).value.names == VariableNames(n)
    decreases n, 1
  {
    match n.kind
    case Formula =>
      if |n.children| >= 1 { ResolveMatchesReference(n.children[0]); }
    case LengthCall =>
      if |n.children| >= 1 { ResolveMatchesReference(n.children[0]); }
    case IfKeyword =>
      if |n.children| >= 1 { ConditionMatchesReference(n.children[0]); }
      if |n.children| >= 2 { ResolveMatchesReference(n.children[1]); }
      if |n.children| >= 3 { ResolveMatchesReference(n.children[2]); }
    case _ =>
  }

  /** The same correspondence for IF conditions. */
  lemma {:induction false} ConditionMatchesReference(n: TNode)
    ensures ResolveCondition(n).Success? <==> ConditionResolvable(n)
    ensures ResolveCondition(n).Success? ==> ResolveCondition(n).value.names == ConditionVariableNames(n)
    decreases n, 2
  {
    if n.kind == BinaryExpression {
      if |n.children| >= 1 { ResolveMatchesReference(n.children[0]); }
      if |n.children| >= 3 { ResolveMatchesReference(n.children[2]); }
    } else {
      ResolveMatchesReference(n);
    }
  }

  /** The interpolation segments of `nodes`, defined right to left: the
      independent description of what the `reduce` builds. */
  function Segments(nodes: seq<TNode>): Result<Fragment, TranspileError>
    decreases |nodes|
  {
    if |nodes| == 0 then Success(Fragment("", []))
    else
      var f :- Resolve(nodes[0]);
      var rest :- Segments(nodes[1..]);
      Success(Fragment(Segment(f) + rest.code, f.names + rest.names))
  }

  /** The left fold from `acc` is `acc` followed by the segments: it fails
      exactly when some node fails, with that node's error. */
  lemma {:induction false} InterpolateIsSegments(nodes: seq<TNode>, acc: Fragment)
    ensures Interpolate(nodes, acc).Success? <==> Segments(nodes).Success?
    ensures Segments(nodes).Failure? ==> Interpolate(nodes, acc) == Failure(Segments(nodes).error)
    ensures Segments(nodes).Success? ==>
              Interpolate(nodes, acc).value
                == Fragment(acc.code + Segments(nodes).value.code, acc.names + Segments(nodes).value.names)
    decreases |nodes|
  {
    if |nodes| > 0 && Resolve(nodes[0]).Success? {
      var f := Resolve(nodes[0]).value;
      var next := Fragment(acc.code + Segment(f), acc.names + f.names);
      InterpolateStep(nodes, acc);
      InterpolateIsSegments(nodes[1..], next);
      if Segments(nodes[1..]).Success? {
        SegmentsStep(nodes, acc);
      }
    }
  }

  /** One step of the fold: a resolvable first node moves its segment into
      the accumulator. */
  lemma InterpolateStep(nodes: seq<TNode>, acc: Fragment)
    requires |nodes| > 0 && Resolve(nodes[0]).Success?
    ensures var f := Resolve(nodes[0]).value;
      Interpolate(nodes, acc) == Interpolate(nodes[1..], Fragment(acc.code + Segment(f), acc.names + f.names))
  {
  }

  /** Appending the segments of `nodes` to `acc` is appending the first
      node's segment, then the segments of the rest. */
  lemma SegmentsStep(nodes: seq<TNode>, acc: Fragment)
    requires |nodes| > 0 && Resolve(nodes[0]).Success? && Segments(nodes[1..]).Success?
    ensures Segments(nodes).Success?
    ensures var f := Resolve(nodes[0]).value;
      var rest := Segments(nodes[1..]).value;
      && acc.code + Segments(nodes).value.code == (acc.code + Segment(f)) + rest.code
      && acc.names + Segments(nodes).value.names == (acc.names + f.names) + rest.names
  {
    var f := Resolve(nodes[0]).value;
    var rest := Segments(nodes[1..]).value;
    assert Segments(nodes).value == Fragment(Segment(f) + rest.code, f.names + rest.names);
    ConcatAssociates(acc.code, Segment(f), rest.code);
    ConcatAssociates(acc.names, f.names, rest.names);
  }

  /** Segments succeed exactly when every node is resolvable. */
  lemma {:induction false} SegmentsSucceedOnResolvable(nodes: seq<TNode>)
    ensures Segments(nodes).Success? <==> forall k :: 0 <= k < |nodes| ==> Resolvable(nodes[k])
    ensures Segments(nodes).Success? ==> Segments(nodes).value.names == SequenceNames(nodes)
    decreases |nodes|
  {
    if |nodes| > 0 {
      ResolveMatchesReference(nodes[0]);
      SegmentsSucceedOnResolvable(nodes[1..]);
      assert forall k :: 1 <= k < |nodes| ==> nodes[k] == nodes[1..][k - 1];
    }
  }

  /** The GET arguments of a list of nodes, left to right. */
  function SequenceNames(nodes: seq<TNode>): seq<string>
    decreases |nodes|
  {
    if |nodes| == 0 then [] else VariableNames(nodes[0]) + SequenceNames(nodes[1..])
  }

  /** What the transpiler produces for a template node: with one child, the
      child's code returned as an expression; otherwise, one `${...}` segment
      per child inside backticks (so no children give an empty template).
      It succeeds exactly when every child is resolvable, and lists the GET
      arguments of all children in order. */
  lemma TranspileTemplate(root: TNode)
    requires |root.children| > 0 && root.children[0].kind == TemplateString
    ensures var children := root.children[0].children;
      && (Transpile(root).Success? <==> forall k :: 0 <= k < |children| ==> Resolvable(children[k]))
      && (Transpile(root).Success? ==>
            && Transpile(root).value.variableNames == SequenceNames(children)
            && Transpile(root).value.func.GeneratedFunction?)
      && (Transpile(root).Success? && |children| == 1 ==>
            && Resolve(children[0]).Success?
            && Transpile(root).value.func.body == "return " + Resolve(children[0]).value.code + ";")
      && (Transpile(root).Success? && |children| != 1 ==>
            && Segments(children).Success?
            && Transpile(root).value.func.body == "return `" + Segments(children).value.code + "`;")
  {
    var template := root.children[0];
    assert Child(root, 0) == Success(template);
    assert Transpile(root) == (
      var body :- BuildFunctionBody(template);
      Success(Transpiled(GeneratedFunction(SubFunctionsArgName, body.code), body.names)));
    FunctionBodyMatches(template);
  }

  /** The generated function body, against the reference definitions. */
  lemma FunctionBodyMatches(template: TNode)
    ensures var children := template.children;
      && (BuildFunctionBody(template).Success? <==> forall k :: 0 <= k < |children| ==> Resolvable(children[k]))
      && (BuildFunctionBody(template).Success? ==> BuildFunctionBody(template).value.names == SequenceNames(children))
      && (BuildFunctionBody(template).Success? && |children| == 1 ==>
            && Resolve(children[0]).Success?
            && BuildFunctionBody(template).value.code == "return " + Resolve(children[0]).value.code + ";")
      && (BuildFunctionBody(template).Success? && |children| != 1 ==>
            && Segments(children).Success?
            && BuildFunctionBody(template).value.code == "return `" + Segments(children).value.code + "`;")
  {
    var children := template.children;
    if |children| == 1 {
      ResolveMatchesReference(children[0]);
      assert SequenceNames(children) == VariableNames(children[0]) + SequenceNames(children[1..]);
      assert SequenceNames(children[1..]) == [];
    } else {
      SegmentedBody(template);
      SegmentsSucceedOnResolvable(children);
    }
  }

  /** With other than one child, the body is the segments inside backticks. */
  lemma SegmentedBody(template: TNode)
    requires |template.children| != 1
    ensures BuildFunctionBody(template).Success? <==> Segments(template.children).Success?
    ensures BuildFunctionBody(template).Success? ==>
              && BuildFunctionBody(template).value.code == "return `" + Segments(template.children).value.code + "`;"
              && BuildFunctionBody(template).value.names == Segments(template.children).value.names
  {
    InterpolateIsSegments(template.children, Fragment("", []));
    if Segments(template.children).Success? {
      assert Fragment("", []).names + Segments(template.children).value.names == Segments(template.children).value.names;
      assert Fragment("", []).code + Segments(template.children).value.code == Segments(template.children).value.code;
    }
  }

  /** A formula node is replaced by the code of its first child; a formula
      with no children has nothing to resolve. */
  lemma FormulaCode(n: TNode)
    requires n.kind == Formula
    ensures |n.children| == 0 ==> Resolve(n) == Failure(MissingOperand)
    ensures |n.children| > 0 ==> Resolve(n) == Resolve(n.children[0])
  {
    if |n.children| > 0 {
      assert Child(n, 0) == Success(n.children[0]);
    }
  }

  /** A LENGTH call wraps the code of its first child, whatever that child
      is, in a `length` call, and records that child's names. */
  lemma LengthCode(n: TNode)
    requires n.kind == LengthCall
    ensures Resolve(n).Success? <==> |n.children| >= 1 && Resolve(n.children[0]).Success?
    ensures Resolve(n).Success? ==>
              && |n.children| >= 1 && Resolve(n.children[0]).Success?
              && Resolve(n).value
                 == Fragment(SubFunctionCall(LengthName, Resolve(n.children[0]).value.code), Resolve(n.children[0]).value.names)
  {
    if |n.children| >= 1 {
      assert Child(n, 0) == Success(n.children[0]);
    }
  }

  /** An IF renders as `condition ? onTrue : onFalse` for any condition,
      recording the names of the condition, the true branch and the false
      branch in that order; it fails when any of the three is missing or
      does not resolve. */
  lemma IfCode(n: TNode)
    requires n.kind == IfKeyword
    ensures Resolve(n).Success? <==>
              && |n.children| >= 3
              && ResolveCondition(n.children[0]).Success?
              && Resolve(n.children[1]).Success?
              && Resolve(n.children[2]).Success?
    ensures Resolve(n).Success? ==>
              && |n.children| >= 3
              && ResolveCondition(n.children[0]).Success?
              && Resolve(n.children[1]).Success?
              && Resolve(n.children[2]).Success?
              && var c := ResolveCondition(n.children[0]).value;
                 var t := Resolve(n.children[1]).value;
                 var f := Resolve(n.children[2]).value;
                 Resolve(n).value == Fragment(c.code + " ? " + t.code + " : " + f.code, c.names + t.names + f.names)
  {
    if |n.children| >= 1 {
      assert Child(n, 0) == Success(n.children[0]);
    }
    if |n.children| >= 2 {
      assert Child(n, 1) == Success(n.children[1]);
    }
    if |n.children| >= 3 {
      assert Child(n, 2) == Success(n.children[2]);
    }
  }

  /** A formula around `GET("name")` resolves to the `get` call on the
      quoted name and records that name. */
  lemma GetFormulaCode(quote: char, name: string)
    ensures var argument := [quote] + name + [quote];
      var formula := TNode("", Formula, [TNode("", GetCall, [TNode(argument, StringLiteral, [])])]);
      Resolve(formula) == Success(Fragment(SubFunctionCall(GetName, argument), [name]))
  {
    var argument := [quote] + name + [quote];
    var get := TNode("", GetCall, [TNode(argument, StringLiteral, [])]);
    DropEndsUnwraps(quote, name);
    assert Child(get, 0) == Success(get.children[0]);
    FormulaCode(TNode("", Formula, [get]));
  }

  /** The template `${GET("name")}` transpiles to a function returning the
      `get` call on the quoted name, and reads exactly that name. */
  lemma GetFormulaTranspiles(quote: char, name: string)
    ensures var argument := [quote] + name + [quote];
      var formula := TNode("", Formula, [TNode("", GetCall, [TNode(argument, StringLiteral, [])])]);
      var root := TNode("", SourceFile, [TNode("", TemplateString, [formula])]);
      Transpile(root)
        == Success(Transpiled(GeneratedFunction("subFunctions", "return subFunctions.get(" + argument + ");"), [name]))
  {
    var argument := [quote] + name + [quote];
    var formula := TNode("", Formula, [TNode("", GetCall, [TNode(argument, StringLiteral, [])])]);
    var template := TNode("", TemplateString, [formula]);
    var root := TNode("", SourceFile, [template]);
    GetFormulaCode(quote, name);
    var body := "return " + SubFunctionCall(GetName, argument) + ";";
    assert BuildFunctionBody(template) == Success(Fragment(body, [name]));
    assert Child(root, 0) == Success(template);
    assert Transpile(root) == Success(Transpiled(GeneratedFunction(SubFunctionsArgName, body), [name]));
    GetReturnText(argument);
  }

  /** The returned `get` call, spelled out. */
  lemma GetReturnText(argument: string)
    ensures "return " + SubFunctionCall(GetName, argument) + ";" == "return subFunctions.get(" + argument + ");"
  {
  }

  /** A GET of a quoted name records the bare name and emits a `get` call on
      the quoted text, so quoting the recorded name gives the argument back. */
  lemma GetCallRoundTrip(quote: char, name: string, rest: seq<TNode>)
    ensures var argument := [quote] + name + [quote];
      var r := Resolve(TNode("", GetCall, [TNode(argument, StringLiteral, [])] + rest));
      && r.Success?
      && r.value.names == [name]
      && r.value.code == SubFunctionCall(GetName, [quote] + r.value.names[0] + [quote])
  {
    DropEndsUnwraps(quote, name);
  }

  /** Literals are emitted as written, a template literal inside double
      quotes, booleans as `true`/`false`; none of them records a name. */
  lemma LiteralCode(n: TNode)
    requires n.kind.TemplateLiteral? || n.kind.StringLiteral? || n.kind.NumericLiteral? || n.kind.TrueKeyword? || n.kind.FalseKeyword?
    ensures Resolve(n).Success? && Resolve(n).value.names == []
    ensures n.kind == TemplateLiteral ==> Resolve(n).value.code == [DoubleQuote] + n.value + [DoubleQuote]
    ensures n.kind.StringLiteral? || n.kind.NumericLiteral? ==> Resolve(n).value.code == n.value
    ensures n.kind == TrueKeyword ==> Resolve(n).value.code == "true"
    ensures n.kind == FalseKeyword ==> Resolve(n).value.code == "false"
  {
  }

  /** `LENGTH(GET("name"))` becomes a `length` call around the `get` call and
      records the one name. */
  lemma LengthOfGet(quote: char, name: string)
    ensures var argument := [quote] + name + [quote];
      var get := TNode("", GetCall, [TNode(argument, StringLiteral, [])]);
      Resolve(TNode("", LengthCall, [get]))
        == Success(Fragment(SubFunctionCall(LengthName, SubFunctionCall(GetName, argument)), [name]))
  {
    DropEndsUnwraps(quote, name);
  }

  /** A comparison condition renders as `left op right`, the comparator's
      text written verbatim between the operands' code. */
  lemma ComparisonCondition(left: TNode, comparator: TNode, right: TNode)
    requires Resolve(left).Success? && Resolve(right).Success?
    ensures ResolveCondition(TNode("", BinaryExpression, [left, comparator, right]))
            == Success(Fragment(Resolve(left).value.code + " " + comparator.value + " " + Resolve(right).value.code,
                                Resolve(left).value.names + Resolve(right).value.names))
  {
    var n := TNode("", BinaryExpression, [left, comparator, right]);
    assert Child(n, 0) == Success(left);
    assert Child(n, 1) == Success(comparator);
    assert Child(n, 2) == Success(right);
  }

  /** An IF whose condition is a comparison renders as
      `left op right ? onTrue : onFalse`, recording the names of the left
      operand, the right operand, the true branch and the false branch in
      that order. */
  lemma IfWithComparison(left: TNode, comparator: TNode, right: TNode, onTrue: TNode, onFalse: TNode)
    requires Resolve(left).Success? && Resolve(right).Success? && Resolve(onTrue).Success? && Resolve(onFalse).Success?
    ensures var condition := TNode("", BinaryExpression, [left, comparator, right]);
      var r := Resolve(TNode("", IfKeyword, [condition, onTrue, onFalse]));
      && r.Success?
      && r.value.code == Resolve(left).value.code + " " + comparator.value + " " + Resolve(right).value.code
                         + " ? " + Resolve(onTrue).value.code + " : " + Resolve(onFalse).value.code
      && r.value.names == VariableNames(left) + VariableNames(right) + VariableNames(onTrue) + VariableNames(onFalse)
  {
    var condition := TNode("", BinaryExpression, [left, comparator, right]);
    var n := TNode("", IfKeyword, [condition, onTrue, onFalse]);
    ComparisonCondition(left, comparator, right);
    var c := ResolveCondition(condition).value;
    var t := Resolve(onTrue).value;
    var f := Resolve(onFalse).value;
    assert Child(n, 0) == Success(condition);
    assert Child(n, 1) == Success(onTrue);
    assert Child(n, 2) == Success(onFalse);
    assert Resolve(n) == Success(Fragment(c.code + " ? " + t.code + " : " + f.code, c.names + t.names + f.names));
    ResolveMatchesReference(left);
    ResolveMatchesReference(right);
    ResolveMatchesReference(onTrue);
    ResolveMatchesReference(onFalse);
  }
}
